=== FILE: README.md ===
# standalone-ignite in Dafny

A model of the core of **standalone-ignite**, a small Java library for
command-line applications. An application object (an `Ignitable`) is wrapped
in a `Standalone`. The `Standalone` tokenizes the command-line arguments,
loads and validates typed parameters declared as enum "parameter classes",
shows a banner, and drives the six lifecycle hooks of the application. A
`ShellAdapter` turns such an application into a shell that runs other
ignitables as commands.

Everything is modelled as immutable datatypes and pure functions:

| file | module | models |
|---|---|---|
| base.dfy | `Base` | `Option` (Java `null` / empty `Optional`), `Result` (a thrown exception), and a loop over checks that stops at the first failure |
| text.dfy | `Text` | the `String` operations used: `trim`, `indexOf`, `split`, joining, ASCII case mapping, `compareTo` order and sorting |
| tokenizer.dfy | `Tokenizer` | `StandaloneBuilder.arguments`: the argument regex, greedy quantifiers and `Matcher.find` included |
| values.dfy | `Values` | runtime type tags and values, `isAssignableFrom` |
| failures.dfy | `Failures` | the exceptions as one datatype; which of them are `ParameterException`s |
| parameters.dfy | `Parameters` | the `Parameter` interface: prefixes, `findParameter`, `parseParameter`, `setValue`, `validateParameter`, `loadParameter`, help, loading a parameter class |
| container.dfy | `Container` | `DefaultParameterContainer`: constructor, built-in enum/library parser, builder |
| console.dfy | `Consoles` | `Console`: `error`, `info` and `verbose` as a trace of formatter calls and printed lines |
| ignitable.dfy | `Ignitables` | `Ignitable`: hooks with their default bodies, `Runnable`/`Closeable` capabilities, the error hooks, the hook chain |
| lifecycle.dfy | `Lifecycle` | `Standalone`: constructor, builder, startup, shutdown, parameter parsing and validation, `ignite`, static help |
| shell.dfy | `Shell` | `ShellAdapter`: command splitting, command building, the command map and list, command execution, batch mode, startup mode |

A lifecycle run is a function from the behaviour of the instance's hooks to
a trace of `Event`s and the failure, if any, that escapes. Each hook either
keeps its default body or is overridden by a body that raises a given
failure. Each of the three error hooks (`startupException`,
`shutdownException`, `parameterProcessingException`) rethrows, swallows, or
raises another failure. Rethrow is the behaviour of the library's own
adapter.

Where the library's documentation and its code disagree, the model follows
the code:

- **Shutdown is not idempotent.** `shutdown` has no guard, so every call runs
  the whole sequence again. A `Closeable` instance that keeps the default
  `shutdown` hook is closed twice in one shutdown: once by the hook and once
  by `closeAutoCloseables` (`Lifecycle.ShutdownClosesCloseableTwice`).
- **Validation failures are not routed.** `InvalidParameter` extends
  `RuntimeException`, not `ParameterException`. So the
  `catch (ParameterException)` around validation never hands it to
  `parameterProcessingException`; it escapes `ignite`
  (`Lifecycle.InvalidParameterEscapesIgnite`). The library's test suite
  expects it to be routed.
- **The tokenizer regex is greedy.** Two quoted values in one command line
  merge into one token, running to the last quote followed by a space.
  Tokens keep their quotes. For non-empty input the last token is always
  the empty match at the end of the input.
- **Only the missing mandatory parameter is caught.** `ignite` catches only
  `MandatoryParameterNotProvided`. Building the help it then prints throws on
  a `null` parameter class.
- **`exit` does not end a batch.** The stop flag is consulted only by the
  interactive loop, so in batch mode `exit` raises the flag and the next
  command still runs.

## Model

| member | source | states |
|---|---|---|
| Tokenizer.MatchEnd | src/main/java/org/bytemechanics/standalone/ignite/Standalone.java:52 | a `find()` match is empty only at the end of the input; for a quote-free word it ends right after the word and its space (or at the end of the input) |
| Tokenizer.LastCloseIsLast | src/main/java/org/bytemechanics/standalone/ignite/Standalone.java:52 | the greedy `.*` pairs an opening quote with the last closing quote that fits: no closing position beyond the chosen one |
| Tokenizer.LastOpenIsLast | src/main/java/org/bytemechanics/standalone/ignite/Standalone.java:52 | the greedy `[^ ]*` picks the last opening quote of the first word that has a closing quote: no later one has |
| Tokenizer.ScanTrimmed | src/main/java/org/bytemechanics/standalone/ignite/Standalone.java:578-581 | every token the successive matches yield is trimmed |
| Tokenizer.Arguments | src/main/java/org/bytemechanics/standalone/ignite/Standalone.java:570-588 | no tokens exactly for an empty argv; every token trimmed; the last token is the empty match at the end of the input |
| Tokenizer.PlainArguments | src/main/java/org/bytemechanics/standalone/ignite/Standalone.java:570-588 | non-empty trimmed entries without spaces or quotes come back as the tokens, in order, followed by one empty token |
| Tokenizer.QuotedValueKeepsQuotes | src/main/java/org/bytemechanics/standalone/ignite/Standalone.java:570-588 | the argv `"a`, `b"` gives the one token `"a b"`, quotes kept, then the empty token |
| Tokenizer.TwoQuotedValuesMerge | src/main/java/org/bytemechanics/standalone/ignite/Standalone.java:52 | the argv `"x`, `y"`, `"z`, `w"`, `c` gives `"x y" "z w"`, `c` and the empty token: the first match runs to the last closing quote followed by a space |
| Parameters.FirstCarrier | src/main/java/org/bytemechanics/standalone/ignite/Parameter.java:140-146 | the chosen argument starts with some prefix followed by a colon, and no earlier argument does |
| Parameters.FindParameter | src/main/java/org/bytemechanics/standalone/ignite/Parameter.java:139-151 | a found text is never empty; the only failures are the two mandatory-parameter failures; not-provided is raised exactly when the parameter has no default and no argument carries it |
| Parameters.FindParameterTakesFirstCarrier | src/main/java/org/bytemechanics/standalone/ignite/Parameter.java:139-151 | the first argument carrying a prefix decides: its text after the first colon, trimmed, or the empty-parameter failure |
| Parameters.FindParameterFallsBackToDefault | src/main/java/org/bytemechanics/standalone/ignite/Parameter.java:147-150 | with no carrying argument the default comes back verbatim, untrimmed, unless it is empty |
| Parameters.DefaultPrefixFindsLowerCaseName | src/main/java/org/bytemechanics/standalone/ignite/Parameter.java:46-48 | with the default prefix, `-<lower-cased name>:<text>` is found and yields the trimmed text |
| Parameters.ParseParameter | src/main/java/org/bytemechanics/standalone/ignite/Parameter.java:158-168 | no parser keeps the raw text; a parsed value is taken as is and a `null` parse falls back to the raw text; it fails exactly when the parser fails, with `UnparseableParameter` for this parameter carrying the parser's failure as its cause, without the value exactly when that cause is an enum parse failure, with the raw text otherwise |
| Parameters.SetValue | src/main/java/org/bytemechanics/standalone/ignite/beans/DefaultParameterContainer.java:180-185 | only the value may change; a present value of an assignable type replaces it, and otherwise the descriptor comes back unchanged; a well-typed descriptor stays well-typed |
| Parameters.SetValueIdempotent | src/main/java/org/bytemechanics/standalone/ignite/beans/DefaultParameterContainer.java:180-185 | assigning the same value twice is assigning it once |
| Parameters.ValidateParameter | src/main/java/org/bytemechanics/standalone/ignite/Parameter.java:173-179 | fails exactly when a validation and a value are present and the validation gives a reason (even an empty one); the failure carries the value and the reason |
| Parameters.ValidationFailureIsNotParameterException | src/main/java/org/bytemechanics/standalone/ignite/exceptions/InvalidParameter.java:25 | a validation failure is never a `ParameterException` |
| Parameters.LoadParameter | src/main/java/org/bytemechanics/standalone/ignite/Parameter.java:185-189 | fails exactly when finding or parsing fails, always with a `ParameterException`; on success only the value changes: it becomes the parse of the found text when that has an assignable type and stays as it was otherwise; a well-typed descriptor stays well-typed |
| Parameters.LoadStringParameter | src/main/java/org/bytemechanics/standalone/ignite/Parameter.java:185-189 | a `String` descriptor without parser takes the found text as its value |
| Parameters.Help | src/main/java/org/bytemechanics/standalone/ignite/Parameter.java:195-203 | the help line is `[<prefixes joined with ", ">]: <description> (` followed by `Default: <default>)` or `Mandatory)`, and nothing else |
| Parameters.HelpMarksMandatory | src/main/java/org/bytemechanics/standalone/ignite/Parameter.java:200-202 | the help line ends in `(Mandatory)` right after the description exactly when the parameter has no default |
| Parameters.SetsHelp | src/main/java/org/bytemechanics/standalone/ignite/Parameter.java:247-255 | the help of a list of parameter classes fails exactly when one is `null`; otherwise it opens with `Usage:\n\t` and ends with a newline |
| Parameters.HelpLines | src/main/java/org/bytemechanics/standalone/ignite/Parameter.java:249-253 | there is one help line per descriptor of every class |
| Parameters.OffsetOrder | src/main/java/org/bytemechanics/standalone/ignite/Parameter.java:249-251 | the descriptors are numbered class by class: every descriptor of a class comes before every descriptor of a later class |
| Parameters.HelpLineIndex | src/main/java/org/bytemechanics/standalone/ignite/Parameter.java:249-253 | the help line of descriptor `j` of class `i` is the help line numbered by the descriptors of the classes before it plus `j` |
| Parameters.SetsHelpListsEveryParameter | src/main/java/org/bytemechanics/standalone/ignite/Parameter.java:247-255 | every descriptor's help line appears in the help, between a newline-tab and a newline |
| Parameters.SetsHelpLineAt | src/main/java/org/bytemechanics/standalone/ignite/Parameter.java:247-255 | the help line of a descriptor starts, after its newline-tab, at the position given by the lengths of the `Usage:` head and of the lines before it |
| Parameters.LineInBody | src/main/java/org/bytemechanics/standalone/ignite/Parameter.java:255 | in a text joined with newline-tabs after a head and closed by a newline, each line starts right after the head and the lines before it |
| Parameters.SetsHelpInOrder | src/main/java/org/bytemechanics/standalone/ignite/Parameter.java:247-255 | the help lines appear in class order and, within a class, in declaration order |
| Parameters.SetsHelpLength | src/main/java/org/bytemechanics/standalone/ignite/Parameter.java:247-255 | the help is exactly as long as `Usage:`, the help lines with one newline-tab each, and a final newline: it holds nothing else |
| Parameters.LoadAll | src/main/java/org/bytemechanics/standalone/ignite/Parameter.java:210-215 | loading a class keeps its size; each descriptor is either left as it was or is its own successful load; any failure is a `ParameterException` |
| Parameters.LoadAllSucceeds | src/main/java/org/bytemechanics/standalone/ignite/Parameter.java:210-215 | when every descriptor loads, each takes its loaded form and nothing fails |
| Parameters.LoadAllStopsAtFirstFailure | src/main/java/org/bytemechanics/standalone/ignite/Parameter.java:210-215 | the first failing descriptor's failure escapes; those before it are loaded, it and those after it are left untouched |
| Parameters.ValidateAll | src/main/java/org/bytemechanics/standalone/ignite/Parameter.java:222-227 | validating a class succeeds exactly when every descriptor validates; a failure is the failure of the first descriptor that fails |
| Container.FirstIgnoringCase | src/main/java/org/bytemechanics/standalone/ignite/beans/DefaultParameterContainer.java:89-94 | the chosen constant equals the text ignoring case and no earlier constant does |
| Container.BuiltinParse | src/main/java/org/bytemechanics/standalone/ignite/beans/DefaultParameterContainer.java:83-100 | a parsed value has the declared type; the parser never returns `null`; an enum failure is `EnumParseExceptionParameter`, any other a `ParseException` |
| Container.CaseSensitiveEnumNeedsExactName | src/main/java/org/bytemechanics/standalone/ignite/beans/DefaultParameterContainer.java:85-87 | case-sensitive enum parsing accepts a text exactly when it is a constant's name, and yields that constant |
| Container.CaseInsensitiveEnumIgnoresCase | src/main/java/org/bytemechanics/standalone/ignite/beans/DefaultParameterContainer.java:88-95 | case-insensitive enum parsing accepts a text exactly when some constant has the same lower-cased form, and yields such a constant |
| Container.CaseInsensitiveAcceptsMore | src/main/java/org/bytemechanics/standalone/ignite/beans/DefaultParameterContainer.java:84-95 | whatever case-sensitive parsing accepts, case-insensitive parsing accepts |
| Container.Construct | src/main/java/org/bytemechanics/standalone/ignite/beans/DefaultParameterContainer.java:58-80 | a `null` name, description or type is rejected, in that order; the only other failure is an unparseable default; the initial value is the parse of the default and absent without one; a supplied parser is kept and a missing one is replaced by the built-in parser for the name, type and case mode; an empty or missing prefix list falls back to the default prefix |
| Container.BuiltinParserGivesWellTypedDefault | src/main/java/org/bytemechanics/standalone/ignite/beans/DefaultParameterContainer.java:72-76 | with the built-in parser the initial value has the declared type |
| Container.BuilderDefaultsToCaseInsensitive | src/main/java/org/bytemechanics/standalone/ignite/beans/DefaultParameterContainer.java:196-245 | a builder never told `caseSensitive` yields a descriptor whose enum parsing ignores case |
| Container.NewBuilder | src/main/java/org/bytemechanics/standalone/ignite/beans/DefaultParameterContainer.java:254-256 | a new builder has every field unset and is not case-sensitive |
| Container.Build | src/main/java/org/bytemechanics/standalone/ignite/beans/DefaultParameterContainer.java:243-245 | the constructor's outcome on the builder's fields: the null checks in order, the fields carried over, the built-in parser when none was set, the default prefix when none was set |
| Consoles.Emit | src/main/java/org/bytemechanics/standalone/ignite/Console.java:63-67 | a `null` message does nothing; otherwise the formatter is applied once, and the formatted line, when not `null`, is printed on the channel |
| Consoles.Error | src/main/java/org/bytemechanics/standalone/ignite/Console.java:63-67 | a `null` message yields no event at all; the error channel receives exactly the formatted line when it is not `null`, and the info and verbose channels receive nothing |
| Consoles.Info | src/main/java/org/bytemechanics/standalone/ignite/Console.java:74-78 | a `null` message yields no event at all; the info channel receives exactly the formatted line when it is not `null`, and the error and verbose channels receive nothing |
| Consoles.Verbose | src/main/java/org/bytemechanics/standalone/ignite/Console.java:85-90 | with verbose output off nothing happens, not even formatting; with it on, the verbose channel receives exactly the formatted line when it is not `null`; the other channels never receive anything |
| Consoles.NullMessageIsSilent | src/main/java/org/bytemechanics/standalone/ignite/Console.java:63-90 | a `null` message produces no event on any channel |
| Consoles.ErrorAndInfoPrintOnce | src/main/java/org/bytemechanics/standalone/ignite/Console.java:63-78 | `error` and `info` print the formatted line once, on their own channel and on no other |
| Consoles.TwoErrorsPrintInOrder | src/main/java/org/bytemechanics/standalone/ignite/Console.java:63-67 | two errors in a row print their two lines, in order, on the error channel and nothing on the info channel |
| Consoles.PrintedOnLines | src/main/java/org/bytemechanics/standalone/ignite/Console.java:63-78 | the lines read from a trace on a channel are exactly those the trace prints on that channel |
| Consoles.VerboseGate | src/main/java/org/bytemechanics/standalone/ignite/Console.java:85-90 | with verbose off `verbose` does nothing, not even formatting; with it on it acts as `info` on the verbose channel |
| Ignitables.WrapCloseFailure | src/main/java/org/bytemechanics/standalone/ignite/Ignitable.java:72-76 | an IOException from `close()` becomes `ShutdownSystemFailure`; any other failure passes unchanged |
| Ignitables.CallHook | src/main/java/org/bytemechanics/standalone/ignite/Ignitable.java:33-86 | an overridden hook only raises its failure; the default `startup` runs a `Runnable` instance; the default `shutdown` closes a `Closeable` one, once; the other defaults do nothing |
| Ignitables.Chain | src/main/java/org/bytemechanics/standalone/ignite/Standalone.java:241-244 | only hooks of the chain are called; no error hook, banner or output; nothing is closed unless `shutdown` is in the chain |
| Ignitables.ChainSucceeds | src/main/java/org/bytemechanics/standalone/ignite/Standalone.java:241-244 | when no hook raises, every hook of the chain is called and nothing escapes |
| Ignitables.ChainRaisesFirstFailure | src/main/java/org/bytemechanics/standalone/ignite/Standalone.java:240-246 | the failure of the first raising hook is what escapes the chain |
| Ignitables.ChainStopsAtFirstFailure | src/main/java/org/bytemechanics/standalone/ignite/Standalone.java:240-246 | the first raising hook and those before it are called, none after it |
| Ignitables.Handle | src/main/java/org/bytemechanics/standalone/ignite/Standalone.java:258-263 | a rethrowing error hook lets its failure escape; nothing escapes exactly when it swallows |
| Ignitables.Finally | src/main/java/org/bytemechanics/standalone/ignite/Standalone.java:258-264 | a failure of the `finally` block replaces the body's; nothing escapes only when neither fails |
| Ignitables.CloseAutoCloseables | src/main/java/org/bytemechanics/standalone/ignite/Standalone.java:252-257 | an `AutoCloseable` instance is closed once and a failure of `close()` escapes unchanged; any other instance is left alone |
| Lifecycle.StartupRun | src/main/java/org/bytemechanics/standalone/ignite/Standalone.java:236-264 | without an instance nothing happens; only `startupException` can be called; nothing is printed |
| Lifecycle.StartupSucceeds | src/main/java/org/bytemechanics/standalone/ignite/Standalone.java:236-250 | a failure-free startup calls the three hooks, closes nothing, calls no error hook and lets nothing escape |
| Lifecycle.StartupStopsAtFirstFailure | src/main/java/org/bytemechanics/standalone/ignite/Standalone.java:240-247 | the first failing startup hook and those before it are called, none after it |
| Lifecycle.StartupFailureHandledThenClosed | src/main/java/org/bytemechanics/standalone/ignite/Standalone.java:245-264 | that failure reaches `startupException` exactly once and no other failure does; an `AutoCloseable` instance is then closed once, as the last event, whatever the hook did; a close failure replaces the hook's outcome |
| Lifecycle.HandledThenClosed | src/main/java/org/bytemechanics/standalone/ignite/Standalone.java:258-264 | after a chain that called no error hook come the error hook's call, once and with that failure only, and the closing, which adds one close and comes last |
| Lifecycle.ShutdownRun | src/main/java/org/bytemechanics/standalone/ignite/Standalone.java:272-288 | only `shutdownException` can be called; an `AutoCloseable` instance is closed as the last event whatever happened, and a failure of that close escapes |
| Lifecycle.ShutdownStopsAtFirstFailure | src/main/java/org/bytemechanics/standalone/ignite/Standalone.java:276-280 | the first failing shutdown hook and those before it are called, none after it |
| Lifecycle.ShutdownFailureHandledThenClosed | src/main/java/org/bytemechanics/standalone/ignite/Standalone.java:276-285 | that failure reaches `shutdownException` exactly once and no other failure does; an `AutoCloseable` instance is then closed once more, as the last event; a close failure replaces the hook's outcome |
| Lifecycle.ShutdownSucceeds | src/main/java/org/bytemechanics/standalone/ignite/Standalone.java:276-285 | a failure-free shutdown calls the three hooks and no error hook; only a close failure escapes |
| Lifecycle.ShutdownHookClosesOnce | src/main/java/org/bytemechanics/standalone/ignite/Ignitable.java:70-79 | within the shutdown hooks, the default `shutdown` of a `Closeable` instance closes it once |
| Lifecycle.ShutdownClosesCloseableTwice | src/main/java/org/bytemechanics/standalone/ignite/Standalone.java:279-284 | a `Closeable` instance keeping the default `shutdown` hook is closed twice by one shutdown |
| Lifecycle.Route | src/main/java/org/bytemechanics/standalone/ignite/Standalone.java:302-303 | a `ParameterException` goes to `parameterProcessingException` and its outcome escapes; any other failure escapes unchanged |
| Lifecycle.InvalidParameterNotRouted | src/main/java/org/bytemechanics/standalone/ignite/Standalone.java:313-319 | a failing validation never reaches the parameter hook and escapes unchanged |
| Lifecycle.RouteNeverShowsInvalidParameter | src/main/java/org/bytemechanics/standalone/ignite/Standalone.java:302-303 | the parameter hook is never handed an `InvalidParameter`, whatever the load's outcome |
| Lifecycle.LoadInOrder | src/main/java/org/bytemechanics/standalone/ignite/Standalone.java:298-301 | the load succeeds exactly when no item fails, and a failure is the failure of one item; each item is either loaded or left as it was |
| Lifecycle.LoadInOrderStopsAtFirstFailure | src/main/java/org/bytemechanics/standalone/ignite/Standalone.java:298-301 | the first failing item's failure escapes; every item up to it is loaded, every item after it is left as it was |
| Lifecycle.LoadInOrderLoadsEvery | src/main/java/org/bytemechanics/standalone/ignite/Standalone.java:298-301 | when no item fails every item is loaded |
| Lifecycle.LoadSet | src/main/java/org/bytemechanics/standalone/ignite/Standalone.java:300-301 | a `null` class is skipped and stays `null`; a class that fails does so with a `ParameterException` |
| Lifecycle.ParseSets | src/main/java/org/bytemechanics/standalone/ignite/Standalone.java:294-307 | the load succeeds exactly when no class fails; any failure is a `ParameterException`; `null` classes stay `null` and are skipped |
| Lifecycle.ParseAbortsRemainingSets | src/main/java/org/bytemechanics/standalone/ignite/Standalone.java:298-304 | the first failing class decides the failure; classes before it are loaded and classes after it are left as they were |
| Lifecycle.ParseLoadsEverySet | src/main/java/org/bytemechanics/standalone/ignite/Standalone.java:298-301 | when no class fails every class is loaded |
| Lifecycle.ValidateSets | src/main/java/org/bytemechanics/standalone/ignite/Standalone.java:309-322 | validation succeeds exactly when every non-null class validates; a failure is that of the first non-null class that fails, an `InvalidParameter` that is never routed |
| Lifecycle.NewStandalone | src/main/java/org/bytemechanics/standalone/ignite/Standalone.java:112-124 | a `null` supplier is rejected; `null` or empty arguments become the empty array; other arguments and the classes are kept |
| Lifecycle.Builder | src/main/java/org/bytemechanics/standalone/ignite/Standalone.java:648-652 | a `null` supplier is rejected with `MandatoryIgnitableSupplier`; a new builder shows the banner, is not verbose, and has no classes and no arguments |
| Lifecycle.WithArguments | src/main/java/org/bytemechanics/standalone/ignite/Standalone.java:570-589 | the arguments become the tokens of argv: none for an empty argv, all trimmed, the last one empty; no other field changes |
| Lifecycle.WithParameters | src/main/java/org/bytemechanics/standalone/ignite/Standalone.java:561-564 | the class is registered after those already registered; no other field changes |
| Lifecycle.Build | src/main/java/org/bytemechanics/standalone/ignite/Standalone.java:633-640 | a console instance, when set, wins over the console built from the formatter and the verbose flag |
| Lifecycle.BuiltArguments | src/main/java/org/bytemechanics/standalone/ignite/Standalone.java:570-588 | a standalone built from plain argv entries holds them in order plus a final empty token; one never given arguments holds none |
| Lifecycle.Banner | src/main/java/org/bytemechanics/standalone/ignite/Standalone.java:343-376 | the banner is shown exactly when it is on and a name is set, and only then can it fail |
| Lifecycle.Chained | src/main/java/org/bytemechanics/standalone/ignite/Standalone.java:219-227 | a supplier returning `null` fails before anything else; the chain prints nothing besides the banner |
| Lifecycle.Ignite | src/main/java/org/bytemechanics/standalone/ignite/Standalone.java:403-421 | a missing mandatory parameter never escapes; any other outcome of the chain is `ignite`'s; after a missing mandatory parameter nothing escapes unless a parameter class is `null` |
| Lifecycle.IgniteOutputOnMandatory | src/main/java/org/bytemechanics/standalone/ignite/Standalone.java:415-418 | on a missing mandatory parameter the chain's trace, with the banner if one was shown, is followed by two errors: the message, then the help; besides the banner these are the only console output |
| Lifecycle.MandatoryReportedWithHelp | src/main/java/org/bytemechanics/standalone/ignite/Standalone.java:415-418 | the error channel shows the message and then the help, and the info channel shows no line besides the banner's |
| Lifecycle.ParseFailureStopsIgnition | src/main/java/org/bytemechanics/standalone/ignite/Standalone.java:407-414 | a rethrown parse failure ends the ignition: no validation, no banner, no hook |
| Lifecycle.InvalidParameterEscapesIgnite | src/main/java/org/bytemechanics/standalone/ignite/Standalone.java:407-421 | a failing validation escapes `ignite` and the parameter hook never sees it |
| Lifecycle.StartupOnlyAfterParameters | src/main/java/org/bytemechanics/standalone/ignite/Standalone.java:407-414 | a startup hook runs only after loading passed (or its failure was swallowed), validation passed and the banner step, if any, did not fail; when the banner is on and a name is set, the trace shows it |
| Lifecycle.StaticHelp | src/main/java/org/bytemechanics/standalone/ignite/Standalone.java:681-691 | empty without a standalone or without classes; fails exactly on a `null` class; otherwise the description line followed by the usage text |
| Text.SortLex | src/main/java/org/bytemechanics/standalone/ignite/shell/ShellAdapter.java:69 | the result is in char-by-char order (Java's `String` order for text inside the Basic Multilingual Plane) and a permutation of the input |
| Shell.CommandsOf | src/main/java/org/bytemechanics/standalone/ignite/shell/ShellAdapter.java:106-112 | every command is non-empty, trimmed and free of `;` |
| Shell.SplitCommands | src/main/java/org/bytemechanics/standalone/ignite/shell/ShellAdapter.java:100-113 | every command is non-empty, trimmed and free of `;`; empty or blank argv gives none |
| Shell.SeparatorsOnlyGiveNoCommand | src/main/java/org/bytemechanics/standalone/ignite/shell/ShellAdapter.java:100-113 | input made only of blanks and `;` gives no command |
| Shell.SplitCommandsJoin | src/main/java/org/bytemechanics/standalone/ignite/shell/ShellAdapter.java:100-113 | commands joined with `;` split back into the same commands, in order |
| Shell.BuildCommand | src/main/java/org/bytemechanics/standalone/ignite/shell/ShellAdapter.java:114-126 | nothing exactly for a `null` or blank line; the name is a non-empty word without spaces; every argument is non-empty, trimmed and without spaces |
| Shell.ArgumentsOf | src/main/java/org/bytemechanics/standalone/ignite/shell/ShellAdapter.java:121-124 | every argument is non-empty, trimmed and without spaces |
| Shell.BuildCommandJoin | src/main/java/org/bytemechanics/standalone/ignite/shell/ShellAdapter.java:114-126 | a name and words written with single spaces build back into that name and those words; quotes are not treated specially |
| Shell.CommandListSplits | src/main/java/org/bytemechanics/standalone/ignite/shell/ShellAdapter.java:63-71 | the command list splits at `,` into the lower-cased names, sorted, each as often as it occurs |
| Shell.Launchers | src/main/java/org/bytemechanics/standalone/ignite/shell/ShellAdapter.java:77-90 | one key per lower-cased class name, each launching a class of that name |
| Shell.AvailableCommands | src/main/java/org/bytemechanics/standalone/ignite/shell/ShellAdapter.java:73-98 | `exit` and `help` are always present and replace a class of the same name; the other keys are exactly the lower-cased class names |
| Shell.EveryClassIsAvailable | src/main/java/org/bytemechanics/standalone/ignite/shell/ShellAdapter.java:73-98 | every class not named `exit` or `help` can be launched by its lower-cased name |
| Shell.ClassLookup | src/main/java/org/bytemechanics/standalone/ignite/shell/ShellAdapter.java:73-98 | a class whose lower-cased name is not `exit` or `help`, and is shared with no class of another name, is in the command map under that name as a launcher of that class |
| Shell.ExecuteLaunch | src/main/java/org/bytemechanics/standalone/ignite/shell/ShellAdapter.java:127-137 | a command whose name maps to a launcher runs that launcher with the tokens of the command's arguments and fails exactly as it does |
| Shell.ExecuteCommand | src/main/java/org/bytemechanics/standalone/ignite/shell/ShellAdapter.java:127-137 | a blank line does nothing; an unknown name fails with the name as typed, before the console is checked; a known name without a shell console fails with `UnknownConsoleType` |
| Shell.CommandNamesIgnoreCase | src/main/java/org/bytemechanics/standalone/ignite/shell/ShellAdapter.java:91-95 | `exit` in any case raises the stop flag; `help` in any case shows the command list |
| Shell.LaunchRunsTheClass | src/main/java/org/bytemechanics/standalone/ignite/shell/ShellAdapter.java:84-89 | a class name launches that class with the tokens of its arguments, and the step fails exactly as that class's `ignite` does |
| Shell.RunBatch | src/main/java/org/bytemechanics/standalone/ignite/shell/ShellAdapter.java:139-145 | the commands are trimmed and blank ones skipped; a batch succeeds exactly when each remaining command does; a failure is that of the first failing command |
| Shell.RunBatchSucceeds | src/main/java/org/bytemechanics/standalone/ignite/shell/ShellAdapter.java:139-145 | a batch with no failing command shows the events of its non-blank commands, in order, and nothing escapes |
| Shell.RunBatchStopsAtFirstFailure | src/main/java/org/bytemechanics/standalone/ignite/shell/ShellAdapter.java:139-145 | at the first failing command the batch shows the events of the non-blank commands before it, then its own, and its failure escapes; no later command adds an event |
| Shell.ExitStops | src/main/java/org/bytemechanics/standalone/ignite/shell/ShellAdapter.java:91 | `exit` alone only raises the stop flag |
| Shell.ExitDoesNotEndBatch | src/main/java/org/bytemechanics/standalone/ignite/shell/ShellAdapter.java:139-145 | after `exit` a batch goes on with the next command |
| Shell.BatchExecution | src/main/java/org/bytemechanics/standalone/ignite/shell/ShellAdapter.java:139-145 | `executeCommand` on each non-blank command: it succeeds exactly when every such command does, with their events in order; otherwise the first failing command ends it after that command's events and its failure escapes |
| Shell.ShellStartup | src/main/java/org/bytemechanics/standalone/ignite/shell/ShellAdapter.java:157-170 | without a standalone it fails with `NoStandaloneInstance`; it goes interactive exactly when no command is found |
| Shell.ShellRunsJoinedCommands | src/main/java/org/bytemechanics/standalone/ignite/shell/ShellAdapter.java:157-170 | commands joined with `;` in one argument run as a batch of exactly those commands, in order |

## Left out

- Banner rendering: Figlet, the font and the JVM lines are not modelled; a shown banner is one `BannerShown` event that may fail with a given failure.
- `addShutdownHook` and `registerStandalone`: a JVM shutdown thread and a reflective setter, not part of the sequencing modelled.
- `extinguish` and `selfExtinguish`: they end in `System.exit`.
- The logging default console, `ShellConsole`, the interactive read loop and the `getShell` cast: terminal I/O. The shell console is a parameter that is absent when the console is not a shell console.
- `GenericTextParser`, `PrimitiveTypeConverter`, `SimpleFormat` and `LambdaUnchecker` are not part of this model. The library conversion is a parameter; case-sensitive enum parsing is taken to accept exactly a constant's name; message text is a parameter (`messageOf`); `LambdaUnchecker` is taken to rethrow a failure unchanged.
- Floating-point, `BigDecimal` and date parsing: library behaviour behind the conversion parameter.
- Class hierarchies and reflection: `isAssignableFrom` knows only equality and `Object`; `getEnumConstants` is an explicit list of constant names; `Runnable`/`Closeable` are flags.
- Validations, suppliers, parsers or formatters that throw: each is a total function in the model.
- `null` entries in argv and a `null` argv passed to `arguments` or `splitCommands`: Java turns the former into the text `null` and throws on the latter.
- Case mapping covers ASCII letters only.
- Text.SortLex: orders chars as Unicode scalar values; Java compares UTF-16 code units, so the two orders differ for chars above U+FFFF (U+1F600 sorts after U+FFFF here and before it in Java).
- `HashMap` iteration order of the command map: the registration order stands in for it, with a later class under the same key winning.
- Java's `split` drops trailing empty pieces and the model keeps them; every caller drops empty pieces afterwards, so the results agree.
- Lifecycle.IgniteOutputOnMandatory: a shown banner is one `BannerShown` event, not console output; in the source `printBanner` writes its lines through `console.info`, so when a startup hook raises the missing mandatory parameter after the banner, those lines precede the two errors.
- Lifecycle.MandatoryReportedWithHelp: the info channel is silent only up to the banner; its `console.info` lines are not modelled, and they appear when the missing mandatory parameter comes from a startup hook after the banner was shown.
- Shell.LaunchRunsTheClass: `launch` is a parameter standing for building the command's standalone and calling `ignite`; that the launched standalone never shows a banner and prints on the shell console is not modelled.
- Ignitables.WrapCloseFailure: states the two cases as implications, not as an if-and-only-if on the result.
- Ignitables.CloseAutoCloseables: a `close()` fails the same way on every call.
- Shell.CommandList: its own contract covers only the empty list; the content is stated by `Shell.CommandListSplits` for names without `,`.

=== FILE: base.dfy ===
/** Failure-compatible wrappers shared by every module of the model: `None`
    stands for a Java `null` or an empty `Optional`, `Err` for a thrown exception. */
module Base {

  datatype Option<+T> = None | Some(value: T) {
    function GetOr(default: T): T {
      match this
      case Some(v) => v
      case None => default
    }
  }

  datatype Result<+T, +E> = Ok(value: T) | Err(error: E)

  /** Checks `xs` in order and stops at the first failure: a loop whose
      body may throw. */
  function FirstFailure<T, F>(xs: seq<T>, check: T -> Option<F>): (r: Option<F>)
    ensures r.None? <==> forall k :: 0 <= k < |xs| ==> check(xs[k]).None?
    ensures r.Some? ==> exists k :: 0 <= k < |xs| && check(xs[k]) == r
                                    && forall j :: 0 <= j < k ==> check(xs[j]).None?
  {
    if |xs| == 0 then None
    else if check(xs[0]).Some? then check(xs[0])
    else
      var rest := FirstFailure(xs[1..], check);
      assert forall k :: 1 <= k < |xs| ==> xs[1..][k - 1] == xs[k];
      rest
  }
}

=== FILE: console.dfy ===
/** `Console`: three output channels sharing one formatter. A message is
    formatted and the formatted line handed to the channel's printer; a
    `null` message, or a `null` formatted line, prints nothing, and the
    verbose channel is gated by the verbose flag before any formatting. */
module Consoles {
  import opened Base

  datatype Channel = ErrorChannel | InfoChannel | VerboseChannel

  /** What the console does, in order: apply its formatter to a message and
      its arguments, or hand a line to the printer of a channel. */
  datatype ConsoleEvent = Formatted(message: string, args: seq<string>) | Printed(channel: Channel, line: string)

  /** The formatter returns `None` for a `null` line. */
  datatype Console = Console(formatter: (string, seq<string>) -> Option<string>, verboseEnabled: bool)

  /** Format a present message and print the line, if any, to `channel`. */
  function Emit(c: Console, channel: Channel, message: Option<string>, args: seq<string>): (r: seq<ConsoleEvent>)
    ensures message.None? ==> r == []
    ensures message.Some? ==> |r| >= 1 && r[0] == Formatted(message.value, args)
    ensures |r| <= 2
    ensures |r| == 2 <==> message.Some? && c.formatter(message.value, args).Some?
    ensures |r| == 2 ==> r[1] == Printed(channel, c.formatter(message.value, args).value)
  {
    match message
    case None => []
    case Some(m) =>
      [Formatted(m, args)] + match c.formatter(m, args)
                             case Some(line) => [Printed(channel, line)]
                             case None => []
  }

  /** The lines a message yields: none for a `null` message or a `null`
      formatted line, otherwise the one formatted line. */
  function Lines(c: Console, message: Option<string>, args: seq<string>): seq<string> {
    if message.Some? && c.formatter(message.value, args).Some? then [c.formatter(message.value, args).value] else []
  }

  /** `Console.error`: the message's line, if any, on the error channel and
      nothing on the others. */
  function Error(c: Console, message: Option<string>, args: seq<string>): (r: seq<ConsoleEvent>)
    ensures message.None? <==> r == []
    ensures PrintedOn(r, ErrorChannel) == Lines(c, message, args)
    ensures PrintedOn(r, InfoChannel) == [] && PrintedOn(r, VerboseChannel) == []
  {
    EmitPrints(c, ErrorChannel, message, args);
    Emit(c, ErrorChannel, message, args)
  }

  /** `Console.info`: the message's line, if any, on the info channel and
      nothing on the others. */
  function Info(c: Console, message: Option<string>, args: seq<string>): (r: seq<ConsoleEvent>)
    ensures message.None? <==> r == []
    ensures PrintedOn(r, InfoChannel) == Lines(c, message, args)
    ensures PrintedOn(r, ErrorChannel) == [] && PrintedOn(r, VerboseChannel) == []
  {
    EmitPrints(c, InfoChannel, message, args);
    Emit(c, InfoChannel, message, args)
  }

  /** `Console.verbose`: nothing at all, not even a formatting, unless
      verbose output is on; then the message's line, if any, on the verbose
      channel only. */
  function Verbose(c: Console, message: Option<string>, args: seq<string>): (r: seq<ConsoleEvent>)
    ensures !c.verboseEnabled ==> r == []
    ensures c.verboseEnabled ==> (message.None? <==> r == [])
    ensures PrintedOn(r, VerboseChannel) == (if c.verboseEnabled then Lines(c, message, args) else [])
    ensures PrintedOn(r, ErrorChannel) == [] && PrintedOn(r, InfoChannel) == []
  {
    EmitPrints(c, VerboseChannel, message, args);
    if c.verboseEnabled then Emit(c, VerboseChannel, message, args) else []
  }

  /** What `Emit` prints on each channel. */
  lemma EmitPrints(c: Console, channel: Channel, message: Option<string>, args: seq<string>)
    ensures forall other: Channel :: PrintedOn(Emit(c, channel, message, args), other)
                                     == (if other == channel then Lines(c, message, args) else [])
  {
    var r := Emit(c, channel, message, args);
    if |r| == 2 {
      assert r[1..] == [r[1]];
    } else if |r| == 1 {
      assert r[1..] == [];
    }
  }

  /** The lines printed on `channel`, in order. */
  function PrintedOn(events: seq<ConsoleEvent>, channel: Channel): (r: seq<string>)
    ensures |r| <= |events|
  {
    if |events| == 0 then []
    else (if events[0].Printed? && events[0].channel == channel then [events[0].line] else [])
         + PrintedOn(events[1..], channel)
  }

  /** `PrintedOn` reads off exactly the lines the trace prints on `channel`. */
  lemma {:induction false} PrintedOnLines(events: seq<ConsoleEvent>, channel: Channel)
    ensures forall line :: line in PrintedOn(events, channel) <==> Printed(channel, line) in events
    decreases |events|
  {
    if |events| > 0 {
      PrintedOnLines(events[1..], channel);
      assert events == [events[0]] + events[1..];
    }
  }

  /** `PrintedOn` of a concatenation is the concatenation of the lines. */
  lemma {:induction false} PrintedOnConcat(a: seq<ConsoleEvent>, b: seq<ConsoleEvent>, channel: Channel)
    ensures PrintedOn(a + b, channel) == PrintedOn(a, channel) + PrintedOn(b, channel)
    decreases |a|
  {
    if |a| == 0 {
      assert a + b == b;
    } else {
      assert (a + b)[1..] == a[1..] + b;
      PrintedOnConcat(a[1..], b, channel);
    }
  }

  /** A `null` message produces nothing on any channel: not even a call to
      the formatter. */
  lemma NullMessageIsSilent(c: Console, args: seq<string>)
    ensures Error(c, None, args) == [] && Info(c, None, args) == [] && Verbose(c, None, args) == []
  {
  }

  /** `error` and `info` print the formatted message, once, on their own
      channel and nowhere else. */
  lemma ErrorAndInfoPrintOnce(c: Console, m: string, args: seq<string>, line: string)
    requires c.formatter(m, args) == Some(line)
    ensures PrintedOn(Error(c, Some(m), args), ErrorChannel) == [line]
    ensures PrintedOn(Error(c, Some(m), args), InfoChannel) == []
    ensures PrintedOn(Info(c, Some(m), args), InfoChannel) == [line]
    ensures PrintedOn(Info(c, Some(m), args), ErrorChannel) == []
  {
    assert Error(c, Some(m), args) == [Formatted(m, args), Printed(ErrorChannel, line)];
    assert Info(c, Some(m), args) == [Formatted(m, args), Printed(InfoChannel, line)];
    assert Error(c, Some(m), args)[1..] == [Printed(ErrorChannel, line)];
    assert Info(c, Some(m), args)[1..] == [Printed(InfoChannel, line)];
  }

  /** Two errors in a row print their two lines, in order, on the error
      channel and nothing on the info channel. */
  lemma TwoErrorsPrintInOrder(c: Console, m1: string, m2: string, line1: string, line2: string)
    requires c.formatter(m1, []) == Some(line1) && c.formatter(m2, []) == Some(line2)
    ensures PrintedOn(Error(c, Some(m1), []) + Error(c, Some(m2), []), ErrorChannel) == [line1, line2]
    ensures PrintedOn(Error(c, Some(m1), []) + Error(c, Some(m2), []), InfoChannel) == []
  {
    var first := Error(c, Some(m1), []);
    var second := Error(c, Some(m2), []);
    PrintedOnConcat(first, second, ErrorChannel);
    PrintedOnConcat(first, second, InfoChannel);
    ErrorAndInfoPrintOnce(c, m1, [], line1);
    ErrorAndInfoPrintOnce(c, m2, [], line2);
  }

  /** With verbose off the verbose channel stays silent and the formatter
      is not applied; with it on, `verbose` behaves as `info` on its own
      channel. */
  lemma VerboseGate(c: Console, message: Option<string>, args: seq<string>)
    ensures !c.verboseEnabled ==> Verbose(c, message, args) == []
    ensures c.verboseEnabled ==> Verbose(c, message, args) == Retarget(Info(c, message, args), VerboseChannel)
  {
  }

  /** The same events with every print moved to `channel`. */
  function Retarget(events: seq<ConsoleEvent>, channel: Channel): (r: seq<ConsoleEvent>)
    ensures |r| == |events|
  {
    seq(|events|, k requires 0 <= k < |events| =>
          match events[k]
          case Printed(_, line) => Printed(channel, line)
          case other => other)
  }
}

=== FILE: container.dfy ===
/** `DefaultParameterContainer`: the ready-made descriptor and its builder.
    The constructor rejects a missing name, description or type, picks the
    supplied parser or builds one, parses the default into the initial value
    and falls back to the default prefix. */
module Container {
  import opened Base
  import opened Text
  import opened Values
  import opened Failures
  import opened Parameters

  /** The library conversion used for non-enum types: the text of the
      converted object, or nothing when the text does not convert. */
  type Library = (TypeTag, string) -> Option<string>

  /** The first constant equal to `text` when case is ignored. */
  function FirstIgnoringCase(constants: seq<string>, text: string): (r: Option<nat>)
    ensures r.Some? ==> r.value < |constants| && EqualsIgnoreCase(constants[r.value], text)
    ensures forall k :: 0 <= k < |constants| && (r.None? || k < r.value) ==> !EqualsIgnoreCase(constants[k], text)
  {
    if |constants| == 0 then None
    else if EqualsIgnoreCase(constants[0], text) then Some(0)
    else match FirstIgnoringCase(constants[1..], text)
      case None => None
      case Some(k) => Some(k + 1)
  }

  /** `buildCustomParser`: an enum takes the constant named exactly `text`
      (case-sensitive) or the first constant equal to it ignoring case;
      any other type goes through the library. Whatever it returns is of
      the declared type, and it never returns `null`. */
  function BuiltinParse(library: Library, name: string, typ: TypeTag, caseSensitive: bool, text: string): (r: ParseOutcome)
    ensures r.Parsed? ==> r.v.typ == typ
    ensures !r.ParsedNull?
    ensures r.ParseFails? ==> r.f == (if typ.EnumType? then EnumParseExceptionParameter(text, typ.enumName)
                                      else ParseException(text, name))
  {
    if typ.EnumType? then
      if caseSensitive then
        if text in typ.constants then Parsed(Value(typ, text))
        else ParseFails(EnumParseExceptionParameter(text, typ.enumName))
      else
        match FirstIgnoringCase(typ.constants, text)
        case Some(k) => Parsed(Value(typ, typ.constants[k]))
        case None => ParseFails(EnumParseExceptionParameter(text, typ.enumName))
    else
      match library(typ, text)
      case Some(converted) => Parsed(Value(typ, converted))
      case None => ParseFails(ParseException(text, name))
  }

  /** Case-sensitive enum parsing accepts exactly the constant names, each
      as itself. */
  lemma CaseSensitiveEnumNeedsExactName(library: Library, name: string, typ: TypeTag, text: string)
    requires typ.EnumType?
    ensures BuiltinParse(library, name, typ, true, text).Parsed? <==> text in typ.constants
    ensures text in typ.constants ==> BuiltinParse(library, name, typ, true, text) == Parsed(Value(typ, text))
  {
  }

  /** Case-insensitive enum parsing accepts a text exactly when some
      constant has the same lower-cased form, and yields such a constant. */
  lemma CaseInsensitiveEnumIgnoresCase(library: Library, name: string, typ: TypeTag, text: string)
    requires typ.EnumType?
    ensures BuiltinParse(library, name, typ, false, text).Parsed? <==>
              exists k :: 0 <= k < |typ.constants| && Lower(typ.constants[k]) == Lower(text)
    ensures BuiltinParse(library, name, typ, false, text).Parsed? ==>
              var v := BuiltinParse(library, name, typ, false, text).v;
              v.text in typ.constants && Lower(v.text) == Lower(text)
  {
    forall k | 0 <= k < |typ.constants| ensures EqualsIgnoreCase(typ.constants[k], text) <==> Lower(typ.constants[k]) == Lower(text) {
      EqualsIgnoreCaseIffLowerEqual(typ.constants[k], text);
    }
    var r := FirstIgnoringCase(typ.constants, text);
    if r.Some? {
      EqualsIgnoreCaseIffLowerEqual(typ.constants[r.value], text);
    }
  }

  /** Whatever the case-sensitive mode accepts the case-insensitive mode
      accepts too. */
  lemma CaseInsensitiveAcceptsMore(library: Library, name: string, typ: TypeTag, text: string)
    requires typ.EnumType?
    requires BuiltinParse(library, name, typ, true, text).Parsed?
    ensures BuiltinParse(library, name, typ, false, text).Parsed?
  {
    var k :| 0 <= k < |typ.constants| && typ.constants[k] == text;
    EqualsIgnoreCaseIffLowerEqual(typ.constants[k], text);
  }

  /** The constructor. `None` stands for a `null` argument. */
  function Construct(name: Option<string>, typ: Option<TypeTag>, description: Option<string>,
                     parser: Option<string -> ParseOutcome>, validation: Option<Value -> Option<string>>,
                     caseSensitive: bool, defaultValue: Option<string>, prefixes: Option<seq<string>>,
                     library: Library): (r: Result<Parameter, Failure>)
    ensures name.None? ==> r == Err(NullPointer("name"))
    ensures name.Some? && description.None? ==> r == Err(NullPointer("description"))
    ensures name.Some? && description.Some? && typ.None? ==> r == Err(NullPointer("type"))
    ensures r.Err? && name.Some? && description.Some? && typ.Some? ==>
              defaultValue.Some? && r.error.UnparseableParameter?
    ensures r.Ok? ==> r.value.name == name.value && r.value.description == description.value
                      && r.value.typ == typ.value && r.value.defaultValue == defaultValue
                      && r.value.validation == validation && r.value.caseSensitive == caseSensitive
    ensures r.Ok? ==> (IsMandatory(r.value) <==> r.value.value.None?)
    ensures r.Ok? && defaultValue.Some? ==> ParseParameter(r.value, defaultValue.value) == Ok(r.value.value.value)
    ensures r.Ok? && parser.Some? ==> r.value.parser == parser
    ensures r.Ok? && parser.None? ==>
              r.value.parser.Some? &&
              forall text :: r.value.parser.value(text) == BuiltinParse(library, name.value, typ.value, caseSensitive, text)
    ensures r.Ok? && prefixes.Some? && |prefixes.value| > 0 ==> r.value.prefixes == prefixes.value
    ensures r.Ok? && (prefixes.None? || |prefixes.value| == 0) ==> r.value.prefixes == DefaultPrefixes(name.value)
  {
    if name.None? then Err(NullPointer("name"))
    else if description.None? then Err(NullPointer("description"))
    else if typ.None? then Err(NullPointer("type"))
    else
      var n, t := name.value, typ.value;
      var chosen := if parser.Some? then parser.value else (s => BuiltinParse(library, n, t, caseSensitive, s));
      var ps := if prefixes.None? || |prefixes.value| == 0 then DefaultPrefixes(n) else prefixes.value;
      var p := Parameter(n, description.value, ps, t, defaultValue, Some(chosen), validation, caseSensitive, None);
      match defaultValue
      case None => Ok(p)
      case Some(d) =>
        match ParseParameter(p, d)
        case Err(f) => Err(f)
        case Ok(v) => Ok(p.(value := Some(v)))
  }

  /** With the built-in parser the initial value has the declared type. A
      supplied parser is trusted: the constructor assigns its result without
      the type check `setValue` makes. */
  lemma BuiltinParserGivesWellTypedDefault(name: Option<string>, typ: Option<TypeTag>, description: Option<string>,
                                           validation: Option<Value -> Option<string>>, caseSensitive: bool,
                                           defaultValue: Option<string>, prefixes: Option<seq<string>>, library: Library)
    requires Construct(name, typ, description, None, validation, caseSensitive, defaultValue, prefixes, library).Ok?
    ensures WellTyped(Construct(name, typ, description, None, validation, caseSensitive, defaultValue, prefixes, library).value)
  {
  }

  /** The builder's fields; `None` is a field never set (left `null`). */
  datatype Builder = Builder(
    name: Option<string>,
    typ: Option<TypeTag>,
    description: Option<string>,
    parser: Option<string -> ParseOutcome>,
    validation: Option<Value -> Option<string>>,
    defaultValue: Option<string>,
    prefixes: Option<seq<string>>,
    caseSensitive: bool)

  /** `DefaultParameterContainer.builder()`: every field unset, `caseSensitive` false. */
  function NewBuilder(): (r: Builder)
    ensures r.name.None? && r.typ.None? && r.description.None? && r.parser.None? && r.validation.None?
    ensures r.defaultValue.None? && r.prefixes.None? && !r.caseSensitive
  {
    Builder(None, None, None, None, None, None, None, false)
  }

  /** `Builder.build()`: the constructor applied to the builder's fields. A
      missing name, description or type fails in that order; otherwise the
      descriptor carries the fields set, the built-in parser when none was
      set, and the default prefix when no prefix was set. */
  function Build(b: Builder, library: Library): (r: Result<Parameter, Failure>)
    ensures b.name.None? ==> r == Err(NullPointer("name"))
    ensures b.name.Some? && b.description.None? ==> r == Err(NullPointer("description"))
    ensures b.name.Some? && b.description.Some? && b.typ.None? ==> r == Err(NullPointer("type"))
    ensures r.Err? && b.name.Some? && b.description.Some? && b.typ.Some? ==>
              b.defaultValue.Some? && r.error.UnparseableParameter?
    ensures r.Ok? ==> r.value.name == b.name.value && r.value.description == b.description.value
                      && r.value.typ == b.typ.value && r.value.defaultValue == b.defaultValue
                      && r.value.validation == b.validation && r.value.caseSensitive == b.caseSensitive
    ensures r.Ok? && b.parser.Some? ==> r.value.parser == b.parser
    ensures r.Ok? && b.parser.None? ==>
              r.value.parser.Some? &&
              forall text :: r.value.parser.value(text) == BuiltinParse(library, b.name.value, b.typ.value, b.caseSensitive, text)
    ensures r.Ok? && (b.prefixes.None? || |b.prefixes.value| == 0) ==> r.value.prefixes == DefaultPrefixes(b.name.value)
  {
    Construct(b.name, b.typ, b.description, b.parser, b.validation, b.caseSensitive, b.defaultValue, b.prefixes, library)
  }

  /** An enum descriptor built without calling `caseSensitive` matches its
      constants ignoring case. */
  lemma BuilderDefaultsToCaseInsensitive(name: string, typ: TypeTag, description: string, library: Library, text: string)
    requires typ.EnumType?
    ensures var r := Build(NewBuilder().(name := Some(name), typ := Some(typ), description := Some(description)), library);
            r.Ok? && r.value.parser.Some?
            && (r.value.parser.value(text).Parsed? <==>
                  exists k :: 0 <= k < |typ.constants| && Lower(typ.constants[k]) == Lower(text))
  {
    CaseInsensitiveEnumIgnoresCase(library, name, typ, text);
  }
}

=== FILE: failures.dfy ===
/** The exceptions of the library as data: each variant carries what the
    exception is built from (parameter name, offending value, cause), not
    its formatted message. */
module Failures {
  import opened Base
  import opened Values

  datatype Failure =
      /** No argument carries the parameter and it has no default. */
    | MandatoryParameterNotProvided(parameter: string, prefixes: seq<string>)
      /** The argument or default found for the parameter is empty. */
    | NullOrEmptyMandatoryParameter(parameter: string)
      /** The parser failed; `value` is absent when the cause is an enum parse failure. */
    | UnparseableParameter(parameter: string, value: Option<string>, cause: Failure)
      /** The validation returned a reason for the current value. */
    | InvalidParameter(parameter: string, current: Value, reason: string)
      /** No enum constant matches the text. */
    | EnumParseExceptionParameter(text: string, enumName: string)
      /** The built-in parser could not convert the text. */
    | ParseException(text: string, parameter: string)
      /** A mandatory constructor argument was null. */
    | NullPointer(what: string)
      /** `Standalone.builder` was given no supplier. */
    | MandatoryIgnitableSupplier
      /** `Closeable.close` failed with an IOException during the default shutdown. */
    | ShutdownSystemFailure(cause: Failure)
    | IOFailure(description: string)
      /** No shell command under the typed name. */
    | UnknownCommand(command: string, commandList: string)
    | NoStandaloneInstance
    | UnknownConsoleType
      /** Any other exception raised by user code (a hook, a parser, a command). */
    | Fault(description: string)

  /** The subclasses of `ParameterException`. `InvalidParameter` extends
      `RuntimeException` directly and is not one of them. */
  predicate IsParameterException(f: Failure) {
    f.MandatoryParameterNotProvided? || f.NullOrEmptyMandatoryParameter? || f.UnparseableParameter?
  }
}

=== FILE: ignitable.dfy ===
/** `Ignitable`: the application object whose lifecycle a `Standalone`
    drives. Each of the six lifecycle hooks either keeps its default body or
    is overridden, and an override is modelled by what it raises. `Runnable`
    and `Closeable`/`AutoCloseable` become capability flags, and the three
    error hooks the standalone calls become a choice of handler. */
module Ignitables {
  import opened Base
  import opened Failures
  import opened Consoles

  datatype Stage = BeforeStartup | Startup | AfterStartup | BeforeShutdown | Shutdown | AfterShutdown

  /** Which `close()` the instance has: none, `AutoCloseable` only, or
      `Closeable` (which extends `AutoCloseable`). */
  datatype Closing = NotCloseable | AutoCloseableOnly | CloseableToo

  /** A hook keeps the interface's default body, or is overridden by a body
      that raises the given failure, if any, and has no other visible effect. */
  datatype Hook = DefaultHook | Overridden(raises: Option<Failure>)

  /** `startupException`, `shutdownException` and
      `parameterProcessingException`: rethrow the failure they are given,
      swallow it, or raise another. */
  datatype ErrorHook = Rethrow | Swallow | Raise(failure: Failure)

  datatype ErrorKind = StartupError | ShutdownError | ParameterError

  datatype Instance = Instance(
    hooks: Stage -> Hook,
    runnable: bool,
    runRaises: Option<Failure>,
    closing: Closing,
    closeRaises: Option<Failure>,
    onStartupError: ErrorHook,
    onShutdownError: ErrorHook,
    onParameterError: ErrorHook)

  /** What can be observed of a lifecycle, in order. */
  datatype Event =
    | HookCalled(stage: Stage)
    | Ran
    | Closed
    | ErrorHookCalled(kind: ErrorKind, failure: Failure)
    | BannerShown
    | Output(event: ConsoleEvent)

  /** A trace of events and the failure, if any, that escapes at the end. */
  datatype Run = Run(trace: seq<Event>, raised: Option<Failure>)

  /** The default `shutdown` rethrows an IOException from `close()` as a
      `ShutdownSystemFailure`; an unchecked failure passes through. */
  function WrapCloseFailure(f: Failure): (r: Failure)
    ensures f.IOFailure? ==> r == ShutdownSystemFailure(f)
    ensures !f.IOFailure? ==> r == f
  {
    if f.IOFailure? then ShutdownSystemFailure(f) else f
  }

  /** One hook call. Only the default `startup` runs the instance and only
      the default `shutdown` closes it; the other defaults do nothing. */
  function CallHook(i: Instance, s: Stage): (r: Run)
    ensures |r.trace| >= 1 && r.trace[0] == HookCalled(s)
    ensures forall t :: HookCalled(t) in r.trace ==> t == s
    ensures forall k, f :: ErrorHookCalled(k, f) !in r.trace
    ensures i.hooks(s).Overridden? ==> r == Run([HookCalled(s)], i.hooks(s).raises)
    ensures i.hooks(s).DefaultHook? && s == Startup ==>
              (Ran in r.trace <==> i.runnable) && r.raised == (if i.runnable then i.runRaises else None)
    ensures i.hooks(s).DefaultHook? && s == Shutdown ==>
              (Closed in r.trace <==> i.closing == CloseableToo)
              && r.raised == (if i.closing == CloseableToo && i.closeRaises.Some?
                              then Some(WrapCloseFailure(i.closeRaises.value)) else None)
    ensures i.hooks(s).DefaultHook? && s != Startup && s != Shutdown ==> r == Run([HookCalled(s)], None)
    ensures Closed in r.trace ==> s == Shutdown && multiset(r.trace)[Closed] == 1
    ensures BannerShown !in r.trace && forall e :: Output(e) !in r.trace
  {
    match i.hooks(s)
    case Overridden(raises) => Run([HookCalled(s)], raises)
    case DefaultHook =>
      if s == Startup && i.runnable then Run([HookCalled(s), Ran], i.runRaises)
      else if s == Shutdown && i.closing == CloseableToo then
        Run([HookCalled(s), Closed], match i.closeRaises
                                     case None => None
                                     case Some(f) => Some(WrapCloseFailure(f)))
      else Run([HookCalled(s)], None)
  }

  /** The hooks of `stages`, called in order; the first that raises stops
      the chain (the `Optional.map` chain of `Standalone`). */
  function Chain(i: Instance, stages: seq<Stage>): (r: Run)
    ensures forall t :: HookCalled(t) in r.trace ==> t in stages
    ensures forall k, f :: ErrorHookCalled(k, f) !in r.trace
    ensures BannerShown !in r.trace && forall e :: Output(e) !in r.trace
    ensures Shutdown !in stages ==> Closed !in r.trace
  {
    if |stages| == 0 then Run([], None)
    else
      var h := CallHook(i, stages[0]);
      if h.raised.Some? then h
      else
        var rest := Chain(i, stages[1..]);
        Run(h.trace + rest.trace, rest.raised)
  }

  predicate Distinct(stages: seq<Stage>) {
    forall j, k :: 0 <= j < k < |stages| ==> stages[j] != stages[k]
  }

  /** When no hook raises, every hook is called and nothing escapes. */
  lemma {:induction false} ChainSucceeds(i: Instance, stages: seq<Stage>)
    requires forall j :: 0 <= j < |stages| ==> CallHook(i, stages[j]).raised.None?
    ensures Chain(i, stages).raised.None?
    ensures forall j :: 0 <= j < |stages| ==> HookCalled(stages[j]) in Chain(i, stages).trace
  {
    if |stages| > 0 {
      ChainSucceeds(i, stages[1..]);
      forall j | 0 <= j < |stages| ensures HookCalled(stages[j]) in Chain(i, stages).trace {
        if j > 0 { assert stages[j] == stages[1..][j - 1]; }
      }
    }
  }

  /** The failure of the first hook that raises is what escapes the chain. */
  lemma {:induction false} ChainRaisesFirstFailure(i: Instance, stages: seq<Stage>, k: nat)
    requires k < |stages| && CallHook(i, stages[k]).raised.Some?
    requires forall j :: 0 <= j < k ==> CallHook(i, stages[j]).raised.None?
    ensures Chain(i, stages).raised == CallHook(i, stages[k]).raised
  {
    if k > 0 {
      var tail := stages[1..];
      forall j | 0 <= j < k - 1 ensures CallHook(i, tail[j]).raised.None? {
        assert tail[j] == stages[j + 1];
      }
      assert tail[k - 1] == stages[k];
      ChainRaisesFirstFailure(i, tail, k - 1);
    }
  }

  /** The first hook that raises stops the chain: the hooks before it and
      it are called, none after it, and its failure is what escapes. */
  lemma {:induction false} ChainStopsAtFirstFailure(i: Instance, stages: seq<Stage>, k: nat)
    requires Distinct(stages)
    requires k < |stages| && CallHook(i, stages[k]).raised.Some?
    requires forall j :: 0 <= j < k ==> CallHook(i, stages[j]).raised.None?
    ensures Chain(i, stages).raised == CallHook(i, stages[k]).raised
    ensures forall j :: 0 <= j < |stages| ==> (HookCalled(stages[j]) in Chain(i, stages).trace <==> j <= k)
  {
    var r := Chain(i, stages);
    var h := CallHook(i, stages[0]);
    if k == 0 {
      forall j | 0 <= j < |stages| ensures HookCalled(stages[j]) in r.trace <==> j <= k {
      }
    } else {
      var tail := stages[1..];
      assert Distinct(tail);
      forall j | 0 <= j < k - 1 ensures CallHook(i, tail[j]).raised.None? {
        assert tail[j] == stages[j + 1];
      }
      assert tail[k - 1] == stages[k];
      ChainStopsAtFirstFailure(i, tail, k - 1);
      forall j | 0 <= j < |stages| ensures HookCalled(stages[j]) in r.trace <==> j <= k {
        if j > 0 {
          assert stages[j] == tail[j - 1];
        } else {
          assert HookCalled(stages[0]) in h.trace;
        }
      }
    }
  }

  /** What an error hook leaves escaping for the failure it is given. */
  function Handle(hook: ErrorHook, f: Failure): (r: Option<Failure>)
    ensures hook.Rethrow? ==> r == Some(f)
    ensures hook.Swallow? <==> r.None?
  {
    match hook
    case Rethrow => Some(f)
    case Swallow => None
    case Raise(g) => Some(g)
  }

  /** A `finally` block: a failure raised by it replaces the one of the
      body it follows. */
  function Finally(body: Option<Failure>, fin: Option<Failure>): (r: Option<Failure>)
    ensures r.None? <==> body.None? && fin.None?
    ensures fin.Some? ==> r == fin
    ensures fin.None? ==> r == body
  {
    if fin.Some? then fin else body
  }

  predicate IsAutoCloseable(i: Instance) {
    i.closing != NotCloseable
  }

  /** `closeAutoCloseables`: an `AutoCloseable` instance is closed and a
      failure of `close()` escapes unchanged. */
  function CloseAutoCloseables(i: Instance): (r: Run)
    ensures IsAutoCloseable(i) ==> r.trace == [Closed] && r.raised == i.closeRaises
    ensures !IsAutoCloseable(i) ==> r == Run([], None)
  {
    if IsAutoCloseable(i) then Run([Closed], i.closeRaises) else Run([], None)
  }
}

=== FILE: lifecycle.dfy ===
/** `Standalone`: builds the application object, loads and validates every
    registered parameter set from the tokenized arguments, shows the banner
    and drives the startup and shutdown hooks of the `Ignitable`. The
    lifecycle is a pure function from the instance's hook behaviour to an
    event trace and the failure, if any, that escapes. */
module Lifecycle {
  import opened Base
  import opened Text
  import opened Failures
  import opened Parameters
  import opened Consoles
  import opened Ignitables
  import Tokenizer

  const StartupStages: seq<Stage> := [BeforeStartup, Startup, AfterStartup]
  const ShutdownStages: seq<Stage> := [BeforeShutdown, Shutdown, AfterShutdown]

  /** `startup`: the three startup hooks in order. The first failure goes to
      `startupException`, after which an `AutoCloseable` instance is closed
      in a `finally`. Without an instance nothing happens. */
  function StartupRun(inst: Option<Instance>): (r: Run)
    ensures inst.None? ==> r == Run([], None)
    ensures forall k, f :: ErrorHookCalled(k, f) in r.trace ==> k == StartupError
    ensures forall e :: Output(e) !in r.trace
    ensures BannerShown !in r.trace
  {
    match inst
    case None => Run([], None)
    case Some(i) =>
      var c := Chain(i, StartupStages);
      match c.raised
      case None => c
      case Some(f) =>
        var close := CloseAutoCloseables(i);
        Run(c.trace + [ErrorHookCalled(StartupError, f)] + close.trace,
            Finally(Handle(i.onStartupError, f), close.raised))
  }

  /** A startup whose hooks all succeed calls each of them, closes nothing,
      calls no error hook and lets nothing escape. */
  lemma StartupSucceeds(i: Instance)
    requires forall j :: 0 <= j < 3 ==> CallHook(i, StartupStages[j]).raised.None?
    ensures StartupRun(Some(i)).raised.None?
    ensures forall j :: 0 <= j < 3 ==> HookCalled(StartupStages[j]) in StartupRun(Some(i)).trace
    ensures Closed !in StartupRun(Some(i)).trace
    ensures forall k, f :: ErrorHookCalled(k, f) !in StartupRun(Some(i)).trace
  {
    ChainSucceeds(i, StartupStages);
  }

  /** The first failing startup hook stops the chain: it and the hooks
      before it are called, none after it. */
  lemma StartupStopsAtFirstFailure(i: Instance, k: nat)
    requires k < 3 && CallHook(i, StartupStages[k]).raised.Some?
    requires forall j :: 0 <= j < k ==> CallHook(i, StartupStages[j]).raised.None?
    ensures forall j :: 0 <= j < 3 ==> (HookCalled(StartupStages[j]) in StartupRun(Some(i)).trace <==> j <= k)
  {
    ChainStopsAtFirstFailure(i, StartupStages, k);
    var c := Chain(i, StartupStages);
    var tail := [ErrorHookCalled(StartupError, c.raised.value)] + CloseAutoCloseables(i).trace;
    assert StartupRun(Some(i)).trace == c.trace + tail;
    forall t ensures HookCalled(t) !in tail { }
  }

  /** The failure of the first failing startup hook reaches
      `startupException` exactly once, and no other failure does. Then, even
      when that hook rethrows, an `AutoCloseable` instance is closed, as the
      last event; a failure of that `close()` replaces whatever the error
      hook raised. */
  lemma StartupFailureHandledThenClosed(i: Instance, k: nat)
    requires k < 3 && CallHook(i, StartupStages[k]).raised.Some?
    requires forall j :: 0 <= j < k ==> CallHook(i, StartupStages[j]).raised.None?
    ensures var r := StartupRun(Some(i));
            var f := CallHook(i, StartupStages[k]).raised.value;
            && multiset(r.trace)[ErrorHookCalled(StartupError, f)] == 1
            && (forall g :: g != f ==> ErrorHookCalled(StartupError, g) !in r.trace)
            && multiset(r.trace)[Closed] == (if IsAutoCloseable(i) then 1 else 0)
            && (IsAutoCloseable(i) ==> r.trace[|r.trace| - 1] == Closed)
            && r.raised == Finally(Handle(i.onStartupError, f), if IsAutoCloseable(i) then i.closeRaises else None)
  {
    ChainRaisesFirstFailure(i, StartupStages, k);
    var c := Chain(i, StartupStages);
    StartupChainDoesNotClose(i);
    var close := CloseAutoCloseables(i);
    HandledThenClosed(c.trace, StartupError, c.raised.value, close.trace);
    assert StartupRun(Some(i)) == Run(c.trace + [ErrorHookCalled(StartupError, c.raised.value)] + close.trace,
                                      Finally(Handle(i.onStartupError, c.raised.value), close.raised));
  }

  /** The startup hooks never close the instance: only the `shutdown` hook can. */
  lemma StartupChainDoesNotClose(i: Instance)
    ensures multiset(Chain(i, StartupStages).trace)[Closed] == 0
  {
    assert Shutdown !in StartupStages;
  }

  /** The events that follow a failed chain: the error hook's call with the
      failure, then the closing, if any. */
  lemma HandledThenClosed(chain: seq<Event>, kind: ErrorKind, f: Failure, close: seq<Event>)
    requires forall k, g :: ErrorHookCalled(k, g) !in chain
    requires close == [] || close == [Closed]
    ensures var t := chain + [ErrorHookCalled(kind, f)] + close;
            && multiset(t)[ErrorHookCalled(kind, f)] == 1
            && (forall g :: g != f ==> ErrorHookCalled(kind, g) !in t)
            && multiset(t)[Closed] == multiset(chain)[Closed] + |close|
            && (close != [] ==> t[|t| - 1] == Closed)
  {
    assert multiset(chain)[ErrorHookCalled(kind, f)] == 0;
  }

  /** `shutdown`: the three shutdown hooks in order, the first failure to
      `shutdownException`, and an `AutoCloseable` instance closed in a
      `finally` whether or not anything failed. Nothing guards against a
      second call: each call runs the whole sequence again. */
  function ShutdownRun(inst: Option<Instance>): (r: Run)
    ensures inst.None? ==> r == Run([], None)
    ensures forall k, f :: ErrorHookCalled(k, f) in r.trace ==> k == ShutdownError
    ensures inst.Some? && IsAutoCloseable(inst.value) ==> |r.trace| > 0 && r.trace[|r.trace| - 1] == Closed
    ensures inst.Some? && IsAutoCloseable(inst.value) && inst.value.closeRaises.Some? ==> r.raised == inst.value.closeRaises
  {
    match inst
    case None => Run([], None)
    case Some(i) =>
      var c := Chain(i, ShutdownStages);
      var close := CloseAutoCloseables(i);
      match c.raised
      case None => Run(c.trace + close.trace, close.raised)
      case Some(f) =>
        Run(c.trace + [ErrorHookCalled(ShutdownError, f)] + close.trace,
            Finally(Handle(i.onShutdownError, f), close.raised))
  }

  /** The first failing shutdown hook stops the chain: it and the hooks
      before it are called, none after it. */
  lemma ShutdownStopsAtFirstFailure(i: Instance, k: nat)
    requires k < 3 && CallHook(i, ShutdownStages[k]).raised.Some?
    requires forall j :: 0 <= j < k ==> CallHook(i, ShutdownStages[j]).raised.None?
    ensures forall j :: 0 <= j < 3 ==> (HookCalled(ShutdownStages[j]) in ShutdownRun(Some(i)).trace <==> j <= k)
  {
    ChainStopsAtFirstFailure(i, ShutdownStages, k);
    var c := Chain(i, ShutdownStages);
    var close := CloseAutoCloseables(i);
    var tail := [ErrorHookCalled(ShutdownError, c.raised.value)] + close.trace;
    assert ShutdownRun(Some(i)) == Run(c.trace + [ErrorHookCalled(ShutdownError, c.raised.value)] + close.trace,
                                       Finally(Handle(i.onShutdownError, c.raised.value), close.raised));
    assert ShutdownRun(Some(i)).trace == c.trace + tail;
    forall t ensures HookCalled(t) !in tail { }
  }

  /** The failure of the first failing shutdown hook reaches
      `shutdownException` exactly once, and no other failure does; an
      `AutoCloseable` instance is then closed once, as the last event, and a
      failure of that `close()` replaces whatever the error hook raised. */
  lemma ShutdownFailureHandledThenClosed(i: Instance, k: nat)
    requires k < 3 && CallHook(i, ShutdownStages[k]).raised.Some?
    requires forall j :: 0 <= j < k ==> CallHook(i, ShutdownStages[j]).raised.None?
    ensures var r := ShutdownRun(Some(i));
            var f := CallHook(i, ShutdownStages[k]).raised.value;
            && multiset(r.trace)[ErrorHookCalled(ShutdownError, f)] == 1
            && (forall g :: g != f ==> ErrorHookCalled(ShutdownError, g) !in r.trace)
            && multiset(r.trace)[Closed] == multiset(Chain(i, ShutdownStages).trace)[Closed] + (if IsAutoCloseable(i) then 1 else 0)
            && (IsAutoCloseable(i) ==> r.trace[|r.trace| - 1] == Closed)
            && r.raised == Finally(Handle(i.onShutdownError, f), if IsAutoCloseable(i) then i.closeRaises else None)
  {
    ChainRaisesFirstFailure(i, ShutdownStages, k);
    var c := Chain(i, ShutdownStages);
    var close := CloseAutoCloseables(i);
    HandledThenClosed(c.trace, ShutdownError, c.raised.value, close.trace);
    assert ShutdownRun(Some(i)) == Run(c.trace + [ErrorHookCalled(ShutdownError, c.raised.value)] + close.trace,
                                       Finally(Handle(i.onShutdownError, c.raised.value), close.raised));
  }

  lemma ShutdownSucceeds(i: Instance)
    requires forall j :: 0 <= j < 3 ==> CallHook(i, ShutdownStages[j]).raised.None?
    ensures ShutdownRun(Some(i)).raised == (if IsAutoCloseable(i) then i.closeRaises else None)
    ensures forall j :: 0 <= j < 3 ==> HookCalled(ShutdownStages[j]) in ShutdownRun(Some(i)).trace
    ensures forall k, f :: ErrorHookCalled(k, f) !in ShutdownRun(Some(i)).trace
  {
    ChainSucceeds(i, ShutdownStages);
  }

  /** A `Closeable` instance that keeps the default `shutdown` is closed
      twice by one shutdown: once by the hook and once more by
      `closeAutoCloseables`. */
  lemma ShutdownClosesCloseableTwice(i: Instance)
    requires i.closing == CloseableToo && i.hooks(Shutdown).DefaultHook?
    requires CallHook(i, BeforeShutdown).raised.None?
    ensures multiset(ShutdownRun(Some(i)).trace)[Closed] == 2
  {
    ShutdownHookClosesOnce(i);
    var c := Chain(i, ShutdownStages);
    var close := CloseAutoCloseables(i);
    assert close.trace == [Closed];
    if c.raised.None? {
      assert ShutdownRun(Some(i)).trace == c.trace + close.trace;
    } else {
      assert ShutdownRun(Some(i)).trace == c.trace + [ErrorHookCalled(ShutdownError, c.raised.value)] + close.trace;
    }
  }

  /** Within the shutdown hooks, the default `shutdown` of a `Closeable`
      instance closes it once. */
  lemma ShutdownHookClosesOnce(i: Instance)
    requires i.closing == CloseableToo && i.hooks(Shutdown).DefaultHook?
    requires CallHook(i, BeforeShutdown).raised.None?
    ensures multiset(Chain(i, ShutdownStages).trace)[Closed] == 1
  {
    var h1 := CallHook(i, BeforeShutdown);
    var h2 := CallHook(i, Shutdown);
    assert multiset(h1.trace)[Closed] == 0;
    assert multiset(h2.trace)[Closed] == 1;
    assert ShutdownStages[1..] == [Shutdown, AfterShutdown];
    assert [Shutdown, AfterShutdown][1..] == [AfterShutdown];
    var c2 := Chain(i, [Shutdown, AfterShutdown]);
    if h2.raised.None? {
      var c3 := Chain(i, [AfterShutdown]);
      assert multiset(c3.trace)[Closed] == 0;
      assert c2.trace == h2.trace + c3.trace;
    }
    assert multiset(c2.trace)[Closed] == 1;
    assert Chain(i, ShutdownStages).trace == h1.trace + c2.trace;
  }

  /** Only subclasses of `ParameterException` reach
      `parameterProcessingException`; any other failure escapes as it is. */
  predicate RoutedToParameterHook(f: Failure) {
    IsParameterException(f)
  }

  /** The `catch (ParameterException e)` around parsing and validation. */
  function Route(i: Instance, failure: Option<Failure>): (r: Run)
    ensures failure.None? ==> r == Run([], None)
    ensures failure.Some? && !RoutedToParameterHook(failure.value) ==> r == Run([], failure)
    ensures failure.Some? && RoutedToParameterHook(failure.value) ==>
              r.trace == [ErrorHookCalled(ParameterError, failure.value)]
              && r.raised == Handle(i.onParameterError, failure.value)
  {
    match failure
    case None => Run([], None)
    case Some(f) =>
      if RoutedToParameterHook(f) then Run([ErrorHookCalled(ParameterError, f)], Handle(i.onParameterError, f))
      else Run([], failure)
  }

  /** A failing validation is never handed to the parameter hook, whatever
      that hook does: it escapes unchanged. */
  lemma InvalidParameterNotRouted(i: Instance, p: Parameter)
    requires ValidateParameter(p).Some?
    ensures Route(i, ValidateParameter(p)) == Run([], ValidateParameter(p))
  {
    ValidationFailureIsNotParameterException(p);
  }

  /** The items of `xs` loaded in order inside one `try`: the first item
      whose load fails keeps what its load left, the items after it are
      not touched, and its failure ends the whole run. */
  function LoadInOrder<T, F>(xs: seq<T>, load: T -> (T, Option<F>)): (r: (seq<T>, Option<F>))
    ensures |r.0| == |xs|
    ensures r.1.None? <==> forall k :: 0 <= k < |xs| ==> load(xs[k]).1.None?
    ensures r.1.Some? ==> exists k :: 0 <= k < |xs| && load(xs[k]).1 == r.1
    ensures forall k :: 0 <= k < |xs| ==> r.0[k] == load(xs[k]).0 || r.0[k] == xs[k]
  {
    if |xs| == 0 then ([], None)
    else
      var first := load(xs[0]);
      assert forall k :: 1 <= k < |xs| ==> xs[1..][k - 1] == xs[k];
      if first.1.Some? then ([first.0] + xs[1..], first.1)
      else
        var rest := LoadInOrder(xs[1..], load);
        ([first.0] + rest.0, rest.1)
  }

  /** The first failing item decides the failure; every item up to it is
      loaded and every item after it is left as it was. */
  lemma {:induction false} LoadInOrderStopsAtFirstFailure<T, F>(xs: seq<T>, load: T -> (T, Option<F>), i: nat)
    requires i < |xs| && load(xs[i]).1.Some?
    requires forall j :: 0 <= j < i ==> load(xs[j]).1.None?
    ensures LoadInOrder(xs, load).1 == load(xs[i]).1
    ensures forall j :: 0 <= j <= i ==> LoadInOrder(xs, load).0[j] == load(xs[j]).0
    ensures forall j :: i < j < |xs| ==> LoadInOrder(xs, load).0[j] == xs[j]
    decreases i
  {
    var r := LoadInOrder(xs, load);
    if i > 0 {
      var tail := xs[1..];
      forall j | 0 <= j < i - 1 ensures load(tail[j]).1.None? {
        assert tail[j] == xs[j + 1];
      }
      assert tail[i - 1] == xs[i];
      LoadInOrderStopsAtFirstFailure(tail, load, i - 1);
      var rest := LoadInOrder(tail, load);
      assert r.0 == [load(xs[0]).0] + rest.0;
      forall j | 0 < j < |xs| ensures r.0[j] == rest.0[j - 1] && tail[j - 1] == xs[j] { }
    }
  }

  /** When no item fails every item is loaded. */
  lemma {:induction false} LoadInOrderLoadsEvery<T, F>(xs: seq<T>, load: T -> (T, Option<F>))
    requires forall j :: 0 <= j < |xs| ==> load(xs[j]).1.None?
    ensures forall j :: 0 <= j < |xs| ==> LoadInOrder(xs, load).0[j] == load(xs[j]).0
  {
    if |xs| > 0 {
      var tail := xs[1..];
      forall j | 0 <= j < |tail| ensures load(tail[j]).1.None? {
        assert tail[j] == xs[j + 1];
      }
      LoadInOrderLoadsEvery(tail, load);
      assert LoadInOrder(xs, load).0 == [load(xs[0]).0] + LoadInOrder(tail, load).0;
      forall j | 0 < j < |xs| ensures tail[j - 1] == xs[j] { }
    }
  }

  /** `loadParameters` of one registered class: a `null` class is skipped. */
  function LoadSet(ps: Option<seq<Parameter>>, args: seq<string>): (r: (Option<seq<Parameter>>, Option<Failure>))
    ensures r.0.None? <==> ps.None?
    ensures r.1.Some? ==> ps.Some? && IsParameterException(r.1.value)
  {
    match ps
    case None => (None, None)
    case Some(ps) =>
      var loaded := LoadAll(ps, args);
      (Some(loaded.0), loaded.1)
  }

  /** A registered parameter class fails to load. */
  predicate SetFails(ps: Option<seq<Parameter>>, args: seq<string>) {
    ps.Some? && LoadAll(ps.value, args).1.Some?
  }

  /** A registered parameter class after loading (a `null` class stays `null`). */
  function Loaded(ps: Option<seq<Parameter>>, args: seq<string>): Option<seq<Parameter>> {
    match ps
    case None => None
    case Some(ps) => Some(LoadAll(ps, args).0)
  }

  /** `parseParameters`: the non-null parameter classes in registration
      order, all inside one `try`. */
  function ParseSets(sets: seq<Option<seq<Parameter>>>, args: seq<string>): (r: (seq<Option<seq<Parameter>>>, Option<Failure>))
    ensures |r.0| == |sets|
    ensures r.1.Some? ==> IsParameterException(r.1.value)
    ensures r.1.None? <==> forall k :: 0 <= k < |sets| ==> !SetFails(sets[k], args)
    ensures forall k :: 0 <= k < |sets| ==> (r.0[k].None? <==> sets[k].None?)
  {
    LoadInOrder(sets, ps => LoadSet(ps, args))
  }

  /** The first failing class decides the failure; every class before it is
      loaded, it keeps the descriptors loaded before its own failure, and
      every class after it is left as it was. */
  lemma ParseAbortsRemainingSets(sets: seq<Option<seq<Parameter>>>, args: seq<string>, i: nat)
    requires i < |sets| && SetFails(sets[i], args)
    requires forall j :: 0 <= j < i ==> !SetFails(sets[j], args)
    ensures ParseSets(sets, args).1 == LoadAll(sets[i].value, args).1
    ensures forall j :: 0 <= j <= i ==> ParseSets(sets, args).0[j] == Loaded(sets[j], args)
    ensures ParseSets(sets, args).0[i + 1..] == sets[i + 1..]
  {
    var load := ps => LoadSet(ps, args);
    forall j | 0 <= j < |sets| ensures load(sets[j]).1.Some? == SetFails(sets[j], args) && load(sets[j]).0 == Loaded(sets[j], args) { }
    LoadInOrderStopsAtFirstFailure(sets, load, i);
    assert ParseSets(sets, args).0[i + 1..] == sets[i + 1..];
  }

  /** When no class fails every class is loaded. */
  lemma ParseLoadsEverySet(sets: seq<Option<seq<Parameter>>>, args: seq<string>)
    requires forall j :: 0 <= j < |sets| ==> !SetFails(sets[j], args)
    ensures ParseSets(sets, args).1.None?
    ensures forall j :: 0 <= j < |sets| ==> ParseSets(sets, args).0[j] == Loaded(sets[j], args)
  {
    var load := ps => LoadSet(ps, args);
    forall j | 0 <= j < |sets| ensures load(sets[j]).1.None? && load(sets[j]).0 == Loaded(sets[j], args) { }
    LoadInOrderLoadsEvery(sets, load);
  }

  /** `validateParameters`: the first failing validation over the non-null
      classes, in registration order. */
  function ValidateSets(sets: seq<Option<seq<Parameter>>>): (r: Option<Failure>)
    ensures r.None? <==> forall k :: 0 <= k < |sets| && sets[k].Some? ==> ValidateAll(sets[k].value).None?
    ensures r.Some? ==> r.value.InvalidParameter? && !RoutedToParameterHook(r.value)
    ensures r.Some? ==> exists k :: 0 <= k < |sets| && ValidateSet(sets[k]) == r
                                    && forall j :: 0 <= j < k ==> ValidateSet(sets[j]).None?
  {
    ValidSetsPass(sets);
    FailingSetInvalid(sets);
    FirstFailure(sets, ValidateSet)
  }

  lemma ValidSetsPass(sets: seq<Option<seq<Parameter>>>)
    ensures FirstFailure(sets, ValidateSet).None? <==>
              forall k :: 0 <= k < |sets| && sets[k].Some? ==> ValidateAll(sets[k].value).None?
  {
    assert forall k :: 0 <= k < |sets| ==> (ValidateSet(sets[k]).None? <==> sets[k].None? || ValidateAll(sets[k].value).None?);
  }

  lemma {:induction false} FailingSetInvalid(sets: seq<Option<seq<Parameter>>>)
    ensures var r := FirstFailure(sets, ValidateSet);
            r.Some? ==> r.value.InvalidParameter? && !RoutedToParameterHook(r.value)
    decreases |sets|
  {
    if |sets| > 0 && ValidateSet(sets[0]).None? {
      FailingSetInvalid(sets[1..]);
    }
  }

  /** One class's validation; a `null` class is skipped. */
  function ValidateSet(ps: Option<seq<Parameter>>): (r: Option<Failure>)
    ensures ps.None? ==> r.None?
    ensures ps.Some? ==> r == ValidateAll(ps.value)
    ensures r.Some? ==> r.value.InvalidParameter?
  {
    match ps
    case Some(descriptors) => ValidateAll(descriptors)
    case None => None
  }

  /** A built standalone. `supplier` is what the supplier returns (`None`
      for `null`); the banner, when shown, raises `bannerRaises` if any (an
      unreadable font). */
  datatype Standalone = Standalone(
    supplier: Option<Instance>,
    name: Option<string>,
    description: Option<string>,
    showBanner: bool,
    bannerRaises: Option<Failure>,
    sets: seq<Option<seq<Parameter>>>,
    arguments: seq<string>,
    console: Console)

  /** The constructor: a `null` supplier is rejected, `null` or empty
      arguments become the empty array. */
  function NewStandalone(supplier: Option<Option<Instance>>, name: Option<string>, description: Option<string>,
                         showBanner: bool, bannerRaises: Option<Failure>, sets: seq<Option<seq<Parameter>>>,
                         arguments: Option<seq<string>>, console: Console): (r: Result<Standalone, Failure>)
    ensures r.Err? <==> supplier.None?
    ensures r.Err? ==> r.error == NullPointer("supplier")
    ensures r.Ok? ==> (r.value.arguments == [] <==> arguments.None? || arguments.value == [])
    ensures r.Ok? && arguments.Some? ==> r.value.arguments == arguments.value
    ensures r.Ok? ==> r.value.sets == sets && r.value.supplier == supplier.value
  {
    match supplier
    case None => Err(NullPointer("supplier"))
    case Some(s) =>
      Ok(Standalone(s, name, description, showBanner, bannerRaises, sets,
                    if arguments.None? || |arguments.value| == 0 then [] else arguments.value, console))
  }

  /** `StandaloneBuilder`; `None` is a field never set. */
  datatype StandaloneBuilder = StandaloneBuilder(
    supplier: Option<Instance>,
    name: Option<string>,
    description: Option<string>,
    showBanner: bool,
    bannerRaises: Option<Failure>,
    sets: seq<Option<seq<Parameter>>>,
    arguments: Option<seq<string>>,
    consoleInstance: Option<Console>,
    formatter: (string, seq<string>) -> Option<string>,
    verbose: bool)

  /** `Standalone.builder(supplier)`: rejects a `null` supplier; the banner
      is shown and verbose output is off unless set otherwise. */
  function Builder(supplier: Option<Option<Instance>>, defaultFormatter: (string, seq<string>) -> Option<string>)
    : (r: Result<StandaloneBuilder, Failure>)
    ensures supplier.None? <==> r == Err(MandatoryIgnitableSupplier)
    ensures r.Ok? ==> r.value.showBanner && !r.value.verbose && r.value.sets == [] && r.value.arguments.None?
  {
    match supplier
    case None => Err(MandatoryIgnitableSupplier)
    case Some(s) => Ok(StandaloneBuilder(s, None, None, true, None, [], None, None, defaultFormatter, false))
  }

  /** `StandaloneBuilder.arguments(argv)`: replaces the arguments with the
      tokens of argv (none for an empty argv, all trimmed, the last one the
      final empty match) and changes nothing else. */
  function WithArguments(b: StandaloneBuilder, argv: seq<string>): (r: StandaloneBuilder)
    ensures r.arguments.Some?
    ensures |argv| == 0 <==> r.arguments.value == []
    ensures Tokenizer.AllTrimmed(r.arguments.value)
    ensures r.arguments.value != [] ==> r.arguments.value[|r.arguments.value| - 1] == ""
    ensures r.(arguments := b.arguments) == b
  {
    b.(arguments := Some(Tokenizer.Arguments(argv)))
  }

  /** `StandaloneBuilder.parameters(class)`: registers one more class after
      those already registered and changes nothing else. */
  function WithParameters(b: StandaloneBuilder, ps: Option<seq<Parameter>>): (r: StandaloneBuilder)
    ensures |r.sets| == |b.sets| + 1 && r.sets[..|b.sets|] == b.sets && r.sets[|b.sets|] == ps
    ensures r.(sets := b.sets) == b
  {
    b.(sets := b.sets + [ps])
  }

  /** `StandaloneBuilder.build()`: a console instance, when given, wins over
      the console built from the formatter and the verbose flag. */
  function Build(b: StandaloneBuilder): (r: Standalone)
    ensures r.console == b.consoleInstance.GetOr(Console(b.formatter, b.verbose))
    ensures r.sets == b.sets && r.supplier == b.supplier
  {
    NewStandalone(Some(b.supplier), b.name, b.description, b.showBanner, b.bannerRaises, b.sets,
                  b.arguments, b.consoleInstance.GetOr(Console(b.formatter, b.verbose))).value
  }

  /** A standalone built from plain argv entries (no blanks, no quotes)
      holds exactly those entries, in order, plus the final empty token; a
      builder never given arguments holds none. */
  lemma BuiltArguments(supplier: Option<Instance>, fmt: (string, seq<string>) -> Option<string>, argv: seq<string>)
    requires forall k :: 0 <= k < |argv| ==> Tokenizer.IsPlainEntry(argv[k])
    ensures Build(Builder(Some(supplier), fmt).value).arguments == []
    ensures |argv| > 0 ==> Build(WithArguments(Builder(Some(supplier), fmt).value, argv)).arguments == argv + [""]
    ensures Build(Builder(Some(supplier), fmt).value).console == Console(fmt, false)
  {
    if |argv| > 0 {
      Tokenizer.PlainArguments(argv);
    }
  }

  /** `printBanner`: only when the banner is on and a name is set. */
  function Banner(s: Standalone): (r: Run)
    ensures r.trace == (if s.showBanner && s.name.Some? then [BannerShown] else [])
    ensures r.raised.Some? ==> s.showBanner && s.name.Some? && r.raised == s.bannerRaises
  {
    if s.showBanner && s.name.Some? then Run([BannerShown], s.bannerRaises) else Run([], None)
  }

  /** The outcome of `ignite`: the trace, the parameter classes as the load
      left them, and the failure that escapes, if any. */
  datatype Ignition = Ignition(trace: seq<Event>, sets: seq<Option<seq<Parameter>>>, raised: Option<Failure>)

  /** The chain `instantiate → parseParameters → validateParameters →
      printBanner → startup`, without the `catch` of `ignite`. */
  function Chained(s: Standalone): (r: Ignition)
    ensures s.supplier.None? ==> r == Ignition([], s.sets, Some(NullPointer("instance")))
    ensures forall e :: Output(e) !in r.trace
  {
    match s.supplier
    case None => Ignition([], s.sets, Some(NullPointer("instance")))
    case Some(i) =>
      var (parsed, parseFailure) := ParseSets(s.sets, s.arguments);
      AfterParsing(s, i, parsed, Route(i, parseFailure), ValidateSets(parsed))
  }

  /** The rest of the chain once the classes are loaded and the load's
      failure, if any, has been routed; `validation` is what validating
      the loaded classes gives. */
  function AfterParsing(s: Standalone, i: Instance, parsed: seq<Option<seq<Parameter>>>, routed: Run,
                        validation: Option<Failure>): (r: Ignition)
    requires forall e :: Output(e) !in routed.trace
    ensures forall e :: Output(e) !in r.trace
  {
    if routed.raised.Some? then Ignition(routed.trace, parsed, routed.raised)
    else
      var validated := Route(i, validation);
      if validated.raised.Some? then Ignition(routed.trace + validated.trace, parsed, validated.raised)
      else
        var banner := Banner(s);
        if banner.raised.Some? then Ignition(routed.trace + validated.trace + banner.trace, parsed, banner.raised)
        else
          var started := StartupRun(Some(i));
          Ignition(routed.trace + validated.trace + banner.trace + started.trace, parsed, started.raised)
  }

  /** The console events of a trace, in order. */
  function ConsoleOutput(trace: seq<Event>): (r: seq<ConsoleEvent>)
    ensures |r| <= |trace|
  {
    if |trace| == 0 then []
    else (if trace[0].Output? then [trace[0].event] else []) + ConsoleOutput(trace[1..])
  }

  lemma {:induction false} ConsoleOutputConcat(a: seq<Event>, b: seq<Event>)
    ensures ConsoleOutput(a + b) == ConsoleOutput(a) + ConsoleOutput(b)
    decreases |a|
  {
    if |a| == 0 {
      assert a + b == b;
    } else {
      var head := if a[0].Output? then [a[0].event] else [];
      assert (a + b)[0] == a[0];
      assert (a + b)[1..] == a[1..] + b;
      assert ConsoleOutput(a + b) == head + ConsoleOutput(a[1..] + b);
      assert ConsoleOutput(a) == head + ConsoleOutput(a[1..]);
      ConsoleOutputConcat(a[1..], b);
    }
  }

  lemma {:induction false} ConsoleOutputSilent(trace: seq<Event>)
    requires forall e :: Output(e) !in trace
    ensures ConsoleOutput(trace) == []
    decreases |trace|
  {
    if |trace| > 0 {
      assert trace[0] in trace;
      assert forall e :: e in trace[1..] ==> e in trace;
      ConsoleOutputSilent(trace[1..]);
    }
  }

  function Outputs(events: seq<ConsoleEvent>): (r: seq<Event>)
    ensures ConsoleOutput(r) == events
    decreases |events|
  {
    if |events| == 0 then []
    else
      var rest := Outputs(events[1..]);
      ConsoleOutputConcat([Output(events[0])], rest);
      assert events == [events[0]] + events[1..];
      [Output(events[0])] + rest
  }

  /** `ignite`: the chain, with `MandatoryParameterNotProvided` caught and
      reported on the error channel as its message and then the help of
      every registered class. Any other failure escapes; building the help
      fails on a `null` class. */
  function Ignite(s: Standalone, messageOf: Failure -> string): (r: Ignition)
    ensures r.raised.Some? ==> !r.raised.value.MandatoryParameterNotProvided?
    ensures Chained(s).raised.None? || !Chained(s).raised.value.MandatoryParameterNotProvided? ==> r == Chained(s)
    ensures Chained(s).raised.Some? && Chained(s).raised.value.MandatoryParameterNotProvided? ==>
              r.sets == Chained(s).sets
              && r.raised == (if NoNullSet(s.sets) then None else Some(NullPointer("parameter class")))
  {
    var c := Chained(s);
    if c.raised.Some? && c.raised.value.MandatoryParameterNotProvided? then
      var first := Error(s.console, Some(messageOf(c.raised.value)), []);
      match SetsHelp(s.sets)
      case Ok(help) => Ignition(c.trace + Outputs(first + Error(s.console, Some(help), [])), c.sets, None)
      case Err(npe) => Ignition(c.trace + Outputs(first), c.sets, Some(npe))
    else c
  }

  /** A missing mandatory parameter ends `ignite` quietly: the error
      channel shows the exception's message and then the help. Besides the
      banner, which is one event whose lines are not modelled, nothing
      else is printed. */
  lemma MandatoryReportedWithHelp(s: Standalone, messageOf: Failure -> string, line1: string, line2: string)
    requires Chained(s).raised.Some? && Chained(s).raised.value.MandatoryParameterNotProvided?
    requires NoNullSet(s.sets)
    requires s.console.formatter(messageOf(Chained(s).raised.value), []) == Some(line1)
    requires s.console.formatter(SetsHelp(s.sets).value, []) == Some(line2)
    ensures Ignite(s, messageOf).raised.None?
    ensures PrintedOn(ConsoleOutput(Ignite(s, messageOf).trace), ErrorChannel) == [line1, line2]
    ensures PrintedOn(ConsoleOutput(Ignite(s, messageOf).trace), InfoChannel) == []
  {
    var m := messageOf(Chained(s).raised.value);
    var help := SetsHelp(s.sets).value;
    IgniteOutputOnMandatory(s, messageOf);
    TwoErrorsPrintInOrder(s.console, m, help, line1, line2);
  }

  /** On a missing mandatory parameter `ignite` keeps the chain's trace,
      banner included when one was shown, and then prints two errors: the
      message, then the help. Those are its only console output besides the
      banner. */
  lemma IgniteOutputOnMandatory(s: Standalone, messageOf: Failure -> string)
    requires Chained(s).raised.Some? && Chained(s).raised.value.MandatoryParameterNotProvided?
    requires NoNullSet(s.sets)
    ensures Ignite(s, messageOf).trace
            == Chained(s).trace
               + Outputs(Error(s.console, Some(messageOf(Chained(s).raised.value)), []) + Error(s.console, Some(SetsHelp(s.sets).value), []))
    ensures ConsoleOutput(Ignite(s, messageOf).trace)
            == Error(s.console, Some(messageOf(Chained(s).raised.value)), []) + Error(s.console, Some(SetsHelp(s.sets).value), [])
  {
    var c := Chained(s);
    var out := Error(s.console, Some(messageOf(c.raised.value)), []) + Error(s.console, Some(SetsHelp(s.sets).value), []);
    assert Ignite(s, messageOf).trace == c.trace + Outputs(out);
    ConsoleOutputSilent(c.trace);
    ConsoleOutputConcat(c.trace, Outputs(out));
  }

  /** A parse failure that `parameterProcessingException` rethrows ends the
      ignition: nothing is validated, no banner, no hook runs. */
  lemma ParseFailureStopsIgnition(s: Standalone)
    requires s.supplier.Some? && s.supplier.value.onParameterError.Rethrow?
    requires ParseSets(s.sets, s.arguments).1.Some?
    ensures var f := ParseSets(s.sets, s.arguments).1.value;
            Chained(s) == Ignition([ErrorHookCalled(ParameterError, f)], ParseSets(s.sets, s.arguments).0, Some(f))
  {
  }

  /** A failing validation escapes `ignite` whatever the parameter hook
      does, and that hook never sees it. */
  lemma InvalidParameterEscapesIgnite(s: Standalone, messageOf: Failure -> string)
    requires s.supplier.Some?
    requires Route(s.supplier.value, ParseSets(s.sets, s.arguments).1).raised.None?
    requires ValidateSets(ParseSets(s.sets, s.arguments).0).Some?
    ensures var f := ValidateSets(ParseSets(s.sets, s.arguments).0).value;
            Ignite(s, messageOf).raised == Some(f) && f.InvalidParameter?
            && ErrorHookCalled(ParameterError, f) !in Ignite(s, messageOf).trace
  {
    var parsed := ParseSets(s.sets, s.arguments);
    var routed := Route(s.supplier.value, parsed.1);
    var f := ValidateSets(parsed.0).value;
    ChainedOnInvalidParameter(s);
    assert Chained(s) == Ignition(routed.trace, parsed.0, Some(f));
    assert f.InvalidParameter?;
    assert Ignite(s, messageOf) == Chained(s);
    RouteNeverShowsInvalidParameter(s.supplier.value, parsed.1, f);
  }

  /** The parameter hook is only ever handed a `ParameterException`. */
  lemma RouteNeverShowsInvalidParameter(i: Instance, failure: Option<Failure>, f: Failure)
    requires f.InvalidParameter?
    ensures ErrorHookCalled(ParameterError, f) !in Route(i, failure).trace
  {
  }

  /** After a failing validation the chain stops with that failure, and
      its trace is what routing the load's outcome left. */
  lemma ChainedOnInvalidParameter(s: Standalone)
    requires s.supplier.Some?
    requires Route(s.supplier.value, ParseSets(s.sets, s.arguments).1).raised.None?
    requires ValidateSets(ParseSets(s.sets, s.arguments).0).Some?
    ensures var parsed := ParseSets(s.sets, s.arguments);
            Chained(s) == Ignition(Route(s.supplier.value, parsed.1).trace, parsed.0, ValidateSets(parsed.0))
  {
    var i := s.supplier.value;
    var parsed := ParseSets(s.sets, s.arguments);
    var routed := Route(i, parsed.1);
    var v := ValidateSets(parsed.0);
    assert Chained(s) == AfterParsing(s, i, parsed.0, routed, v);
    AfterParsingOnInvalidParameter(s, i, parsed.0, routed, v);
  }

  lemma AfterParsingOnInvalidParameter(s: Standalone, i: Instance, parsed: seq<Option<seq<Parameter>>>, routed: Run,
                                       validation: Option<Failure>)
    requires forall e :: Output(e) !in routed.trace
    requires routed.raised.None? && validation.Some? && !RoutedToParameterHook(validation.value)
    ensures AfterParsing(s, i, parsed, routed, validation) == Ignition(routed.trace, parsed, validation)
  {
    assert Route(i, validation) == Run([], validation);
    assert routed.trace + [] == routed.trace;
  }

  /** Startup hooks run only once every class has loaded (or its failure
      was swallowed) and every validation has passed, and only when the
      banner step, if any, did not fail; a banner that is on with a name
      set was shown. */
  lemma StartupOnlyAfterParameters(s: Standalone)
    requires HookCalled(BeforeStartup) in Chained(s).trace
    ensures s.supplier.Some?
    ensures Route(s.supplier.value, ParseSets(s.sets, s.arguments).1).raised.None?
    ensures ValidateSets(ParseSets(s.sets, s.arguments).0).None?
    ensures Banner(s).raised.None?
    ensures s.showBanner && s.name.Some? ==> BannerShown in Chained(s).trace
  {
    if s.supplier.Some? {
      var i := s.supplier.value;
      var routed := Route(i, ParseSets(s.sets, s.arguments).1);
      assert HookCalled(BeforeStartup) !in routed.trace;
      assert HookCalled(BeforeStartup) !in Banner(s).trace;
      if s.showBanner && s.name.Some? {
        var validated := Route(i, ValidateSets(ParseSets(s.sets, s.arguments).0));
        var started := StartupRun(Some(i));
        assert Chained(s).trace == routed.trace + validated.trace + Banner(s).trace + started.trace;
        assert Chained(s).trace[|routed.trace| + |validated.trace|] == BannerShown;
      }
    }
  }

  /** The text `description + "\n"` that opens the static help, if any. */
  function DescriptionLine(description: Option<string>): string {
    match description
    case None => ""
    case Some(d) => d + "\n"
  }

  /** Static `getHelp`: the help of the latest standalone built, or the
      empty string when there is none or it has no parameter classes. */
  function StaticHelp(latest: Option<Standalone>): (r: Result<string, Failure>)
    ensures latest.None? || latest.value.sets == [] ==> r == Ok("")
    ensures r.Err? <==> latest.Some? && latest.value.sets != [] && !NoNullSet(latest.value.sets)
    ensures r.Ok? && r.value != "" ==> r.value[|r.value| - 1] == '\n'
    ensures r.Ok? && latest.Some? && latest.value.sets != [] ==>
              var pre := DescriptionLine(latest.value.description);
              StartsWith(r.value, pre) && StartsWith(r.value[|pre|..], "Usage:\n\t")
  {
    match latest
    case None => Ok("")
    case Some(s) =>
      if s.sets == [] then Ok("")
      else
        match SetsHelp(s.sets)
        case Err(f) => Err(f)
        case Ok(help) =>
          var pre := DescriptionLine(s.description);
          assert (pre + help)[|pre|..] == help;
          Ok(pre + help)
  }
}

=== FILE: parameters.dfy ===
/** `Parameter`: the descriptor of one command-line parameter and the
    default behaviour every descriptor shares: its default prefix, finding
    its text among the arguments, parsing it, assigning and validating the
    value, and rendering help. The enum constants of a Java parameter class
    become a `seq<Parameter>`, the "set" of the parameter class. */
module Parameters {
  import opened Base
  import opened Text
  import opened Values
  import opened Failures

  /** What a parser does with a text: returns an object, returns `null`, or throws. */
  datatype ParseOutcome = Parsed(v: Value) | ParsedNull | ParseFails(f: Failure)

  /** A parameter descriptor. `parser` and `validation` are absent when the
      descriptor returns `null` for them; a validation returns `null`
      (`None`) for a valid value and a reason otherwise. */
  datatype Parameter = Parameter(
    name: string,
    description: string,
    prefixes: seq<string>,
    typ: TypeTag,
    defaultValue: Option<string>,
    parser: Option<string -> ParseOutcome>,
    validation: Option<Value -> Option<string>>,
    caseSensitive: bool,
    value: Option<Value>)

  /** The one default prefix: a dash followed by the lower-cased name. */
  function DefaultPrefixes(name: string): seq<string> {
    ["-" + Lower(name)]
  }

  predicate IsMandatory(p: Parameter) {
    p.defaultValue.None?
  }

  /** `arg` starts with one of `prefixes` followed by a colon. */
  predicate Carries(prefixes: seq<string>, arg: string) {
    exists k :: 0 <= k < |prefixes| && StartsWith(arg, prefixes[k] + ":")
  }

  /** The first argument that carries one of the prefixes. */
  function FirstCarrier(prefixes: seq<string>, args: seq<string>): (r: Option<nat>)
    ensures r.Some? ==> r.value < |args| && Carries(prefixes, args[r.value])
    ensures forall k :: 0 <= k < |args| && (r.None? || k < r.value) ==> !Carries(prefixes, args[k])
  {
    if |args| == 0 then None
    else if Carries(prefixes, args[0]) then Some(0)
    else match FirstCarrier(prefixes, args[1..])
      case None => None
      case Some(i) => Some(i + 1)
  }

  /** `arg.substring(arg.indexOf(':') + 1)`: the text after the first colon
      of the whole argument (the whole argument when there is none). */
  function AfterFirstColon(arg: string): string {
    match IndexOf(arg, ':')
    case Some(i) => arg[i + 1..]
    case None => arg
  }

  /** `findParameter`: the trimmed text after the first colon of the first
      argument carrying a prefix, else the default verbatim; an empty result
      and a missing mandatory parameter are errors. */
  function FindParameter(p: Parameter, args: seq<string>): (r: Result<string, Failure>)
    ensures r.Ok? ==> r.value != ""
    ensures r.Err? ==> r.error == NullOrEmptyMandatoryParameter(p.name)
                       || r.error == MandatoryParameterNotProvided(p.name, p.prefixes)
    ensures r == Err(MandatoryParameterNotProvided(p.name, p.prefixes)) <==>
              IsMandatory(p) && forall k :: 0 <= k < |args| ==> !Carries(p.prefixes, args[k])
  {
    var found :=
      match FirstCarrier(p.prefixes, args)
      case Some(i) => Some(Trim(AfterFirstColon(args[i])))
      case None => p.defaultValue;
    match found
    case None => Err(MandatoryParameterNotProvided(p.name, p.prefixes))
    case Some(text) => if text == "" then Err(NullOrEmptyMandatoryParameter(p.name)) else Ok(text)
  }

  /** The first carrying argument decides, whatever the later ones hold. */
  lemma FindParameterTakesFirstCarrier(p: Parameter, args: seq<string>, i: nat)
    requires i < |args| && Carries(p.prefixes, args[i])
    requires forall k :: 0 <= k < i ==> !Carries(p.prefixes, args[k])
    ensures var text := Trim(AfterFirstColon(args[i]));
            FindParameter(p, args) == if text == "" then Err(NullOrEmptyMandatoryParameter(p.name)) else Ok(text)
  {
  }

  /** With no carrying argument the default comes back untrimmed. */
  lemma FindParameterFallsBackToDefault(p: Parameter, args: seq<string>, d: string)
    requires forall k :: 0 <= k < |args| ==> !Carries(p.prefixes, args[k])
    requires p.defaultValue == Some(d)
    ensures FindParameter(p, args) == if d == "" then Err(NullOrEmptyMandatoryParameter(p.name)) else Ok(d)
  {
  }

  /** A descriptor with the default prefix finds `-<lower-cased name>:<text>`
      and yields the trimmed text, provided the name has no colon. */
  lemma DefaultPrefixFindsLowerCaseName(p: Parameter, text: string)
    requires p.prefixes == DefaultPrefixes(p.name)
    requires ':' !in p.name
    requires Trim(text) != ""
    ensures FindParameter(p, ["-" + Lower(p.name) + ":" + text]) == Ok(Trim(text))
  {
    var prefix := "-" + Lower(p.name);
    var arg := prefix + ":" + text;
    assert StartsWith(arg, p.prefixes[0] + ":") by {
      assert arg[..|prefix + ":"|] == prefix + ":";
    }
    assert ':' !in prefix by {
      forall k | 0 <= k < |prefix| ensures prefix[k] != ':' {
        if k > 0 {
          assert prefix[k] == LowerChar(p.name[k - 1]);
          assert p.name[k - 1] != ':';
        }
      }
    }
    assert IndexOf(arg, ':') == Some(|prefix|) by {
      assert arg[|prefix|] == ':';
      forall k | 0 <= k < |prefix| ensures arg[k] != ':' {
        assert arg[k] == prefix[k];
      }
    }
    assert arg[|prefix| + 1..] == text;
    FindParameterTakesFirstCarrier(p, [arg], 0);
  }

  /** `parseParameter`: no parser, or a parser returning `null`, keeps the
      raw text; a parsed object is the result; a parser failure becomes
      `UnparseableParameter`, without the value for an enum-parse failure
      and with it for any other. */
  function ParseParameter(p: Parameter, text: string): (r: Result<Value, Failure>)
    ensures p.parser.None? ==> r == Ok(StringValue(text))
    ensures p.parser.Some? && p.parser.value(text).Parsed? ==> r == Ok(p.parser.value(text).v)
    ensures p.parser.Some? && p.parser.value(text).ParsedNull? ==> r == Ok(StringValue(text))
    ensures r.Err? <==> p.parser.Some? && p.parser.value(text).ParseFails?
    ensures r.Err? ==> r.error.UnparseableParameter? && r.error.parameter == p.name
    ensures r.Err? ==> r.error.cause == p.parser.value(text).f
    ensures r.Err? ==> (r.error.value.None? <==> r.error.cause.EnumParseExceptionParameter?)
    ensures r.Err? && r.error.value.Some? ==> r.error.value.value == text
  {
    match p.parser
    case None => Ok(StringValue(text))
    case Some(parse) =>
      match parse(text)
      case Parsed(v) => Ok(v)
      case ParsedNull => Ok(StringValue(text))
      case ParseFails(f) =>
        if f.EnumParseExceptionParameter? then Err(UnparseableParameter(p.name, None, f))
        else Err(UnparseableParameter(p.name, Some(text), f))
  }

  /** The current value, when present, is of a type assignable to the declared one. */
  predicate WellTyped(p: Parameter) {
    p.value.Some? ==> IsAssignableFrom(p.typ, p.value.value.typ)
  }

  /** `DefaultParameterContainer.setValue`: only a present value of an
      assignable type replaces the current one; nothing else changes. */
  function SetValue(p: Parameter, v: Option<Value>): (r: Parameter)
    ensures r.(value := p.value) == p
    ensures r.value == v || r.value == p.value
    ensures v.Some? && IsAssignableFrom(p.typ, v.value.typ) ==> r.value == v
    ensures !(v.Some? && IsAssignableFrom(p.typ, v.value.typ)) ==> r == p
    ensures WellTyped(p) ==> WellTyped(r)
  {
    if v.Some? && IsAssignableFrom(p.typ, v.value.typ) then p.(value := v) else p
  }

  /** Assigning the same value twice is assigning it once. */
  lemma SetValueIdempotent(p: Parameter, v: Option<Value>)
    ensures SetValue(SetValue(p, v), v) == SetValue(p, v)
  {
  }

  /** `validateParameter`: fails exactly when a validation and a value are
      both present and the validation gives a reason, even an empty one; the
      failure carries the current value and that reason. */
  function ValidateParameter(p: Parameter): (r: Option<Failure>)
    ensures r.None? <==> p.validation.None? || p.value.None? || p.validation.value(p.value.value).None?
    ensures r.Some? ==> p.value.Some? && p.validation.Some?
                        && r.value == InvalidParameter(p.name, p.value.value, p.validation.value(p.value.value).value)
  {
    match (p.validation, p.value)
    case (Some(validate), Some(v)) =>
      (match validate(v)
       case Some(reason) => Some(InvalidParameter(p.name, v, reason))
       case None => None)
    case _ => None
  }

  /** A validation failure is never a `ParameterException`. */
  lemma ValidationFailureIsNotParameterException(p: Parameter)
    ensures ValidateParameter(p).Some? ==> !IsParameterException(ValidateParameter(p).value)
  {
  }

  /** `loadParameter`: find, parse, assign. Only the value may change: it
      becomes the parse of the found text when that is of an assignable
      type and stays as it was otherwise; every failure is a
      `ParameterException`. */
  function LoadParameter(p: Parameter, args: seq<string>): (r: Result<Parameter, Failure>)
    ensures r.Err? ==> IsParameterException(r.error)
    ensures r.Ok? ==> r.value.(value := p.value) == p
    ensures r.Ok? && WellTyped(p) ==> WellTyped(r.value)
    ensures r.Err? <==> FindParameter(p, args).Err? || ParseParameter(p, FindParameter(p, args).value).Err?
    ensures r.Ok? ==> var v := ParseParameter(p, FindParameter(p, args).value).value;
                      r.value.value == (if IsAssignableFrom(p.typ, v.typ) then Some(v) else p.value)
  {
    match FindParameter(p, args)
    case Err(f) => Err(f)
    case Ok(text) =>
      match ParseParameter(p, text)
      case Err(f) => Err(f)
      case Ok(v) => Ok(SetValue(p, Some(v)))
  }

  /** A descriptor without parser, of type `String`, takes the found text as its value. */
  lemma LoadStringParameter(p: Parameter, args: seq<string>)
    requires p.parser.None? && p.typ == StringType
    requires FindParameter(p, args).Ok?
    ensures LoadParameter(p, args) == Ok(p.(value := Some(StringValue(FindParameter(p, args).value))))
  {
  }

  /** The "(...)" part of a help line. */
  function DefaultNote(p: Parameter): string {
    match p.defaultValue
    case Some(d) => "Default: " + d
    case None => "Mandatory"
  }

  /** Everything of a help line before its note. */
  function HelpHead(p: Parameter): string {
    "[" + Join(p.prefixes, ", ") + "]: " + p.description + " ("
  }

  /** `getHelp`: `[<prefixes joined by ", ">]: <description> (<note>)`,
      the note being `Default: <default>` or `Mandatory`. */
  function Help(p: Parameter): (r: string)
    ensures StartsWith(r, "[" + Join(p.prefixes, ", ") + "]: " + p.description + " (")
    ensures p.defaultValue.Some? ==> EndsWith(r, "Default: " + p.defaultValue.value + ")")
    ensures p.defaultValue.None? ==> EndsWith(r, "Mandatory)")
    ensures |r| == |"[" + Join(p.prefixes, ", ") + "]: " + p.description + " ("| + |DefaultNote(p)| + 1
  {
    Framed(HelpHead(p), DefaultNote(p), ")");
    HelpHead(p) + DefaultNote(p) + ")"
  }

  /** `h + m + t` opens with `h`, closes with `m + t` and holds nothing else. */
  lemma Framed(h: string, m: string, t: string)
    ensures StartsWith(h + m + t, h)
    ensures EndsWith(h + m + t, m + t)
    ensures |h + m + t| == |h| + |m| + |t|
  {
    assert (h + m + t)[..|h|] == h;
    assert (h + m + t)[|h|..] == m + t;
  }

  /** The help line ends in "(Mandatory)" right after the description
      exactly when the parameter is mandatory: a default, whatever its text,
      is shown as "(Default: ...)". */
  lemma HelpMarksMandatory(p: Parameter)
    ensures Help(p) == HelpHead(p) + "Mandatory)" <==> IsMandatory(p)
  {
    var h := HelpHead(p);
    if !IsMandatory(p) {
      assert Help(p)[|h|] == DefaultNote(p)[0] == 'D';
      assert (h + "Mandatory)")[|h|] == 'M';
    }
  }

  /** How many descriptors the first `i` sets hold together: where the
      lines of set `i` begin. */
  function Offset(sets: seq<seq<Parameter>>, i: nat): nat
    requires i <= |sets|
  {
    if i == 0 then 0 else |sets[0]| + Offset(sets[1..], i - 1)
  }

  /** Descriptor `j` of set `i` comes before every descriptor of a later set. */
  lemma {:induction false} OffsetOrder(sets: seq<seq<Parameter>>, i: nat, j: nat, i2: nat)
    requires i < i2 <= |sets| && j < |sets[i]|
    ensures Offset(sets, i) + j < Offset(sets, i2)
    decreases i
  {
    if i > 0 {
      assert sets[1..][i - 1] == sets[i];
      OffsetOrder(sets[1..], i - 1, j, i2 - 1);
    }
  }

  /** The help lines of every descriptor of every set, in order: one line
      per descriptor and nothing else. */
  function HelpLines(sets: seq<seq<Parameter>>): (r: seq<string>)
    ensures |r| == Offset(sets, |sets|)
  {
    if |sets| == 0 then []
    else seq(|sets[0]|, k requires 0 <= k < |sets[0]| => Help(sets[0][k])) + HelpLines(sets[1..])
  }

  /** No `null` entry in a list of parameter classes. */
  predicate NoNullSet(sets: seq<Option<seq<Parameter>>>) {
    forall i :: 0 <= i < |sets| ==> sets[i].Some?
  }

  function PresentSets(sets: seq<Option<seq<Parameter>>>): (r: seq<seq<Parameter>>)
    ensures |r| <= |sets|
    ensures NoNullSet(sets) ==> |r| == |sets| && forall i :: 0 <= i < |sets| ==> r[i] == sets[i].value
  {
    if |sets| == 0 then []
    else (if sets[0].Some? then [sets[0].value] else []) + PresentSets(sets[1..])
  }

  /** `Parameter.getHelp(List)`: a usage header, then one help line per
      descriptor, each after a newline and a tab, then a final newline. A
      `null` class in the list throws. */
  function SetsHelp(sets: seq<Option<seq<Parameter>>>): (r: Result<string, Failure>)
    ensures r.Err? <==> !NoNullSet(sets)
    ensures r.Ok? ==> StartsWith(r.value, "Usage:\n\t") && r.value[|r.value| - 1] == '\n'
  {
    if !NoNullSet(sets) then Err(NullPointer("parameter class"))
    else Ok("Usage:" + "\n\t" + Join(HelpLines(PresentSets(sets)), "\n\t") + "\n")
  }

  predicate IsInfix(x: string, s: string) {
    exists k :: 0 <= k <= |s| && StartsWith(s[k..], x)
  }

  /** Every descriptor of every set has its help line in the set help, on a
      line of its own. */
  lemma SetsHelpListsEveryParameter(sets: seq<Option<seq<Parameter>>>, i: nat, j: nat)
    requires NoNullSet(sets) && i < |sets| && j < |sets[i].value|
    ensures IsInfix("\n\t" + Help(sets[i].value[j]) + "\n", SetsHelp(sets).value)
  {
    var lines := HelpLines(PresentSets(sets));
    var n := HelpLineIndex(PresentSets(sets), i, j);
    var before, rest := JoinAround(lines, n);
    var x := "\n\t" + lines[n] + "\n";
    Regroup("Usage:", "\n\t", Join(lines, "\n\t"), "\n", before, x, rest);
    InfixAt("Usage:" + before, x, rest);
  }

  /** The help line of descriptor `j` of class `i` is line `n`, and it
      begins, after its newline-tab, at the position that index gives. */
  lemma SetsHelpLineAt(sets: seq<Option<seq<Parameter>>>, i: nat, j: nat) returns (n: nat, pos: nat)
    requires NoNullSet(sets) && i < |sets| && j < |sets[i].value|
    ensures n == Offset(PresentSets(sets), i) + j && n < |HelpLines(PresentSets(sets))|
    ensures pos == |"Usage:"| + LineStart(HelpLines(PresentSets(sets)), "\n\t", n)
    ensures pos <= |SetsHelp(sets).value|
    ensures StartsWith(SetsHelp(sets).value[pos..], "\n\t" + Help(sets[i].value[j]) + "\n")
  {
    var ps := PresentSets(sets);
    var lines := HelpLines(ps);
    n := HelpLineIndex(ps, i, j);
    assert SetsHelp(sets).value == "Usage:" + "\n\t" + Join(lines, "\n\t") + "\n";
    pos := LineInBody("Usage:", lines, n);
  }

  /** Line `n` of a body that follows `u` begins at `|u|` plus its `LineStart`. */
  lemma LineInBody(u: string, parts: seq<string>, n: nat) returns (pos: nat)
    requires n < |parts|
    ensures pos == |u| + LineStart(parts, "\n\t", n)
    ensures pos <= |u + "\n\t" + Join(parts, "\n\t") + "\n"|
    ensures StartsWith((u + "\n\t" + Join(parts, "\n\t") + "\n")[pos..], "\n\t" + parts[n] + "\n")
  {
    var before, rest := JoinAround(parts, n);
    if n > 0 {
      JoinPrefixLength(parts, "\n\t", n);
    }
    var x := "\n\t" + parts[n] + "\n";
    Regroup(u, "\n\t", Join(parts, "\n\t"), "\n", before, x, rest);
    pos := |u| + |before|;
    DropPrefix(u + before, x, rest);
  }

  lemma DropPrefix<T>(pre: seq<T>, x: seq<T>, rest: seq<T>)
    ensures (pre + x + rest)[|pre|..] == x + rest && (x + rest)[..|x|] == x
  {
  }

  /** The help lines come in registration order: a descriptor of an
      earlier class, or earlier in the same class, is listed first. */
  lemma SetsHelpInOrder(sets: seq<Option<seq<Parameter>>>, i: nat, j: nat, i2: nat, j2: nat) returns (a: nat, b: nat)
    requires NoNullSet(sets) && i < |sets| && j < |sets[i].value| && i2 < |sets| && j2 < |sets[i2].value|
    requires i < i2 || (i == i2 && j < j2)
    ensures a < b <= |SetsHelp(sets).value|
    ensures StartsWith(SetsHelp(sets).value[a..], "\n\t" + Help(sets[i].value[j]) + "\n")
    ensures StartsWith(SetsHelp(sets).value[b..], "\n\t" + Help(sets[i2].value[j2]) + "\n")
  {
    var ps := PresentSets(sets);
    var n1, n2;
    n1, a := SetsHelpLineAt(sets, i, j);
    n2, b := SetsHelpLineAt(sets, i2, j2);
    if i < i2 {
      OffsetOrder(ps, i, j, i2);
    }
    LineStartGrows(HelpLines(ps), "\n\t", n1, n2);
  }

  /** The usage text holds the header, the lines with their newline-tabs,
      and the final newline, and nothing else. */
  lemma SetsHelpLength(sets: seq<Option<seq<Parameter>>>)
    requires NoNullSet(sets)
    ensures var lines := HelpLines(PresentSets(sets));
            |SetsHelp(sets).value| == |"Usage:"| + (if |lines| == 0 then 3 else LineStart(lines, "\n\t", |lines|) + 1)
  {
    var lines := HelpLines(PresentSets(sets));
    if |lines| > 0 {
      JoinPrefixLength(lines, "\n\t", |lines|);
      assert lines[..|lines|] == lines;
    }
  }

  lemma Regroup(u: string, t: string, body: string, nl: string, before: string, x: string, rest: string)
    requires t + body + nl == before + x + rest
    ensures u + t + body + nl == (u + before) + x + rest
  {
    calc {
      u + t + body + nl;
      u + (t + body + nl);
      u + (before + x + rest);
      (u + before) + x + rest;
    }
  }

  lemma InfixAt(pre: string, x: string, post: string)
    ensures IsInfix(x, pre + x + post)
  {
    assert (pre + x + post)[|pre|..] == x + post;
  }

  /** Where part `n` begins in `sep + Join(parts, sep)`: each earlier part
      and the separator before it. */
  function LineStart(parts: seq<string>, sep: string, n: nat): nat
    requires n <= |parts|
  {
    if n == 0 then 0 else LineStart(parts, sep, n - 1) + |sep| + |parts[n - 1]|
  }

  /** With a non-empty separator a later part begins strictly later. */
  lemma {:induction false} LineStartGrows(parts: seq<string>, sep: string, m: nat, n: nat)
    requires |sep| > 0 && m < n <= |parts|
    ensures LineStart(parts, sep, m) < LineStart(parts, sep, n)
    decreases n
  {
    if m < n - 1 {
      LineStartGrows(parts, sep, m, n - 1);
    }
  }

  /** A separator and the join of the first `n` parts end where part `n` begins. */
  lemma {:induction false} JoinPrefixLength(parts: seq<string>, sep: string, n: nat)
    requires 0 < n <= |parts|
    ensures |sep| + |Join(parts[..n], sep)| == LineStart(parts, sep, n)
    decreases n
  {
    if n == 1 {
      assert parts[..1] == [parts[0]];
    } else {
      JoinPrefixLength(parts, sep, n - 1);
      JoinConcat(parts[..n - 1], [parts[n - 1]], sep);
      assert parts[..n - 1] + [parts[n - 1]] == parts[..n];
    }
  }

  /** In a help body, every line sits between a newline-tab and a newline,
      after the earlier lines. */
  lemma JoinAround(parts: seq<string>, n: nat) returns (before: string, rest: string)
    requires n < |parts|
    ensures "\n\t" + Join(parts, "\n\t") + "\n" == before + ("\n\t" + parts[n] + "\n") + rest
    ensures before == if n == 0 then "" else "\n\t" + Join(parts[..n], "\n\t")
  {
    var sep := "\n\t";
    if n == 0 {
      before := "";
    } else {
      before := sep + Join(parts[..n], sep);
      JoinConcat(parts[..n], parts[n..], sep);
      assert parts[..n] + parts[n..] == parts;
    }
    if n + 1 == |parts| {
      rest := "";
      assert parts[n..] == [parts[n]];
    } else {
      rest := "\t" + Join(parts[n + 1..], sep) + "\n";
      JoinConcat([parts[n]], parts[n + 1..], sep);
      assert [parts[n]] + parts[n + 1..] == parts[n..];
    }
  }

  /** Joining a concatenation is joining the halves around one separator. */
  lemma {:induction false} JoinConcat(a: seq<string>, b: seq<string>, sep: string)
    requires |a| > 0 && |b| > 0
    ensures Join(a + b, sep) == Join(a, sep) + sep + Join(b, sep)
    decreases |a|
  {
    if |a| == 1 {
      assert (a + b)[1..] == b;
    } else {
      assert (a + b)[1..] == a[1..] + b;
      JoinConcat(a[1..], b, sep);
    }
  }

  /** The help line of `sets[i][j]` is line `Offset(sets, i) + j`. */
  lemma {:induction false} HelpLineIndex(sets: seq<seq<Parameter>>, i: nat, j: nat) returns (n: nat)
    requires i < |sets| && j < |sets[i]|
    ensures n == Offset(sets, i) + j
    ensures n < |HelpLines(sets)| && HelpLines(sets)[n] == Help(sets[i][j])
    decreases i
  {
    var head := seq(|sets[0]|, k requires 0 <= k < |sets[0]| => Help(sets[0][k]));
    assert HelpLines(sets) == head + HelpLines(sets[1..]);
    if i == 0 {
      n := j;
    } else {
      assert sets[1..][i - 1] == sets[i];
      var m := HelpLineIndex(sets[1..], i - 1, j);
      n := |head| + m;
    }
  }

  /** `Parameter.parseParameters` on one parameter class: loads the
      descriptors in order and stops at the first failure, keeping the
      descriptors loaded before it. */
  function LoadAll(ps: seq<Parameter>, args: seq<string>): (r: (seq<Parameter>, Option<Failure>))
    ensures |r.0| == |ps|
    ensures r.1.Some? ==> IsParameterException(r.1.value)
    ensures forall k :: 0 <= k < |ps| ==> r.0[k] == ps[k] || LoadParameter(ps[k], args) == Ok(r.0[k])
  {
    if |ps| == 0 then ([], None)
    else
      match LoadParameter(ps[0], args)
      case Err(f) => (ps, Some(f))
      case Ok(p) =>
        var rest := LoadAll(ps[1..], args);
        ([p] + rest.0, rest.1)
  }

  /** When every descriptor loads, each takes its loaded form. */
  lemma {:induction false} LoadAllSucceeds(ps: seq<Parameter>, args: seq<string>)
    requires forall k :: 0 <= k < |ps| ==> LoadParameter(ps[k], args).Ok?
    ensures LoadAll(ps, args).1.None?
    ensures forall k :: 0 <= k < |ps| ==> LoadAll(ps, args).0[k] == LoadParameter(ps[k], args).value
  {
    if |ps| > 0 {
      LoadAllSucceeds(ps[1..], args);
      assert forall k :: 1 <= k < |ps| ==> ps[1..][k - 1] == ps[k];
    }
  }

  /** The first failing descriptor ends the load: those before it are
      loaded, it and those after it are left as they were. */
  lemma LoadAllStopsAtFirstFailure(ps: seq<Parameter>, args: seq<string>, i: nat)
    requires i < |ps|
    requires forall k :: 0 <= k < i ==> LoadParameter(ps[k], args).Ok?
    requires LoadParameter(ps[i], args).Err?
    ensures LoadAll(ps, args).1 == Some(LoadParameter(ps[i], args).error)
    ensures LoadAll(ps, args).0[i..] == ps[i..]
    ensures forall k :: 0 <= k < i ==> LoadAll(ps, args).0[k] == LoadParameter(ps[k], args).value
  {
    LoadAllFailsWithFirstFailure(ps, args, i);
    LoadAllLoadsBeforeFirstFailure(ps, args, i);
    LoadAllLeavesFromFirstFailure(ps, args, i);
    assert LoadAll(ps, args).0[i..] == ps[i..];
  }

  /** The first failing descriptor of `ps` is, one place earlier, the first
      failing descriptor of its tail. */
  lemma FirstFailureInTail(ps: seq<Parameter>, args: seq<string>, i: nat)
    requires 0 < i < |ps|
    requires forall k :: 0 <= k < i ==> LoadParameter(ps[k], args).Ok?
    requires LoadParameter(ps[i], args).Err?
    ensures forall k :: 0 <= k < i - 1 ==> LoadParameter(ps[1..][k], args).Ok?
    ensures LoadParameter(ps[1..][i - 1], args).Err?
  {
    var tail := ps[1..];
    forall k | 0 <= k < i - 1 ensures LoadParameter(tail[k], args).Ok? {
      assert tail[k] == ps[k + 1];
    }
  }

  lemma {:induction false} LoadAllFailsWithFirstFailure(ps: seq<Parameter>, args: seq<string>, i: nat)
    requires i < |ps|
    requires forall k :: 0 <= k < i ==> LoadParameter(ps[k], args).Ok?
    requires LoadParameter(ps[i], args).Err?
    ensures LoadAll(ps, args).1 == Some(LoadParameter(ps[i], args).error)
    decreases i
  {
    if i > 0 {
      FirstFailureInTail(ps, args, i);
      LoadAllFailsWithFirstFailure(ps[1..], args, i - 1);
    }
  }

  lemma {:induction false} LoadAllLoadsBeforeFirstFailure(ps: seq<Parameter>, args: seq<string>, i: nat)
    requires i < |ps|
    requires forall k :: 0 <= k < i ==> LoadParameter(ps[k], args).Ok?
    requires LoadParameter(ps[i], args).Err?
    ensures forall k :: 0 <= k < i ==> LoadAll(ps, args).0[k] == LoadParameter(ps[k], args).value
    decreases i
  {
    if i > 0 {
      var tail := ps[1..];
      FirstFailureInTail(ps, args, i);
      LoadAllLoadsBeforeFirstFailure(tail, args, i - 1);
      var r := LoadAll(ps, args);
      var rest := LoadAll(tail, args);
      assert r.0 == [LoadParameter(ps[0], args).value] + rest.0;
      forall k | 0 < k < i ensures r.0[k] == rest.0[k - 1] && tail[k - 1] == ps[k] { }
    }
  }

  lemma {:induction false} LoadAllLeavesFromFirstFailure(ps: seq<Parameter>, args: seq<string>, i: nat)
    requires i < |ps|
    requires forall k :: 0 <= k < i ==> LoadParameter(ps[k], args).Ok?
    requires LoadParameter(ps[i], args).Err?
    ensures forall k :: i <= k < |ps| ==> LoadAll(ps, args).0[k] == ps[k]
    decreases i
  {
    if i > 0 {
      var tail := ps[1..];
      FirstFailureInTail(ps, args, i);
      LoadAllLeavesFromFirstFailure(tail, args, i - 1);
      var r := LoadAll(ps, args);
      var rest := LoadAll(tail, args);
      assert r.0 == [LoadParameter(ps[0], args).value] + rest.0;
      forall k | i <= k < |ps| ensures r.0[k] == rest.0[k - 1] && tail[k - 1] == ps[k] { }
    }
  }

  /** `Parameter.validateParameters` on one parameter class: the first
      failing validation, in declaration order. */
  function ValidateAll(ps: seq<Parameter>): (r: Option<Failure>)
    ensures r.None? <==> forall k :: 0 <= k < |ps| ==> ValidateParameter(ps[k]).None?
    ensures r.Some? ==> exists k :: 0 <= k < |ps| && ValidateParameter(ps[k]) == r
                                    && forall j :: 0 <= j < k ==> ValidateParameter(ps[j]).None?
    ensures r.Some? ==> r.value.InvalidParameter?
  {
    FirstFailure(ps, ValidateParameter)
  }
}

=== FILE: shell.dfy ===
/** `ShellAdapter`: an ignitable that runs other ignitables as shell
    commands. The standalone's arguments are split into `;`-separated
    commands; each command is a name (looked up ignoring case) and its
    words. A registered class launches its own standalone, `exit` raises the
    stop flag and `help` prints the command list. */
module Shell {
  import opened Base
  import opened Text
  import opened Failures
  import opened Consoles
  import Tokenizer

  /** `CommandExecution`: a command name as typed and its arguments. */
  datatype CommandExecution = CommandExecution(name: string, arguments: seq<string>)

  /** What a key of the available-commands map does. */
  datatype Action = Launch(className: string) | Exit | Help

  datatype ShellEvent =
    | Launched(className: string, arguments: seq<string>)
    | Stopped
    | Shown(event: ConsoleEvent)

  /** The events of one or more commands and the failure that escapes, if any. */
  datatype Step = Step(events: seq<ShellEvent>, raised: Option<Failure>)

  /** Each piece trimmed. */
  function TrimAll(xs: seq<string>): (r: seq<string>)
    ensures |r| == |xs|
    ensures forall k :: 0 <= k < |xs| ==> r[k] == Trim(xs[k])
  {
    seq(|xs|, k requires 0 <= k < |xs| => Trim(xs[k]))
  }

  /** The non-empty pieces, in order. */
  function NonEmpty(xs: seq<string>): (r: seq<string>)
    ensures |r| <= |xs|
    ensures forall k :: 0 <= k < |r| ==> r[k] != "" && r[k] in xs
    ensures (forall k :: 0 <= k < |xs| ==> xs[k] != "") ==> r == xs
    ensures (forall k :: 0 <= k < |xs| ==> xs[k] == "") ==> r == []
  {
    if |xs| == 0 then []
    else
      var rest := NonEmpty(xs[1..]);
      assert forall k :: 1 <= k < |xs| ==> xs[1..][k - 1] == xs[k];
      assert xs == [xs[0]] + xs[1..];
      if xs[0] == "" then rest else [xs[0]] + rest
  }

  /** `trim` never brings in a char that was not there. */
  lemma TrimKeepsAbsence(s: string, c: char)
    requires c !in s
    ensures c !in Trim(s)
  {
    var i := SkipBlanks(s, 0);
    var j := SkipBlanksBack(s, i, |s|);
    forall k | 0 <= k < j - i ensures s[i..j][k] != c {
      assert s[i..j][k] == s[i + k];
    }
  }

  /** The commands of a trimmed, non-empty line: the pieces between `;`,
      trimmed, the empty ones dropped. */
  function CommandsOf(line: string): (r: seq<string>)
    ensures forall k :: 0 <= k < |r| ==> r[k] != "" && IsTrimmed(r[k]) && ';' !in r[k]
  {
    var pieces := Split(line, ';');
    var r := NonEmpty(TrimAll(pieces));
    forall k | 0 <= k < |r| ensures IsTrimmed(r[k]) && ';' !in r[k] {
      var m :| 0 <= m < |pieces| && TrimAll(pieces)[m] == r[k];
      TrimKeepsAbsence(pieces[m], ';');
    }
    r
  }

  /** `splitCommands`: argv joined with spaces and trimmed, split at every
      `;`, each piece trimmed and the empty ones dropped. */
  function SplitCommands(argv: seq<string>): (r: seq<string>)
    ensures forall k :: 0 <= k < |r| ==> r[k] != "" && IsTrimmed(r[k]) && ';' !in r[k]
    ensures |argv| == 0 ==> r == []
    ensures IsBlank(Join(argv, " ")) ==> r == []
  {
    if |argv| == 0 then []
    else
      var line := Trim(Join(argv, " "));
      TrimEmptyIffBlank(Join(argv, " "));
      if line == "" then [] else CommandsOf(line)
  }

  /** Every piece of a split is blank when the text holds only blanks and
      separators. */
  lemma {:induction false} SplitOfBlanksAndSeparators(s: string, c: char)
    requires forall k :: 0 <= k < |s| ==> s[k] == c || IsBlankChar(s[k])
    ensures forall k :: 0 <= k < |Split(s, c)| ==> IsBlank(Split(s, c)[k])
    decreases |s|
  {
    match IndexOf(s, c)
    case None =>
    case Some(i) =>
      SplitOfBlanksAndSeparators(s[i + 1..], c);
      var rest := Split(s[i + 1..], c);
      assert Split(s, c) == [s[..i]] + rest;
  }

  /** Input made only of blanks and `;` holds no command. */
  lemma SeparatorsOnlyGiveNoCommand(argv: seq<string>)
    requires forall k :: 0 <= k < |Join(argv, " ")| ==> Join(argv, " ")[k] == ';' || IsBlankChar(Join(argv, " ")[k])
    ensures SplitCommands(argv) == []
  {
    if |argv| > 0 {
      var s := Join(argv, " ");
      var line := Trim(s);
      if line != "" {
        var front, back := TrimRemovesBlankEnds(s);
        forall k | 0 <= k < |line| ensures line[k] == ';' || IsBlankChar(line[k]) {
          assert line[k] == s[|front| + k];
        }
        SplitOfBlanksAndSeparators(line, ';');
        var pieces := Split(line, ';');
        forall k | 0 <= k < |pieces| ensures TrimAll(pieces)[k] == "" {
          TrimEmptyIffBlank(pieces[k]);
        }
      }
    }
  }

  /** A word of a command line: non-empty, with no blank char. */
  predicate IsWord(w: string) {
    |w| > 0 && forall k :: 0 <= k < |w| ==> !IsBlankChar(w[k])
  }

  /** Commands joined with `;` split back into the same commands, in order. */
  lemma SplitCommandsJoin(cmds: seq<string>)
    requires |cmds| >= 1
    requires forall k :: 0 <= k < |cmds| ==> cmds[k] != "" && IsTrimmed(cmds[k]) && ';' !in cmds[k]
    ensures SplitCommands([Join(cmds, ";")]) == cmds
  {
    var s := Join(cmds, ";");
    JoinedLineIsItsOwnTrim(cmds, ";");
    assert SplitCommands([s]) == CommandsOf(s);
    SplitJoin(cmds, ';');
    TrimAllOfTrimmed(cmds);
  }

  /** A single argument made of joined pieces is its own trimmed line. */
  lemma JoinedLineIsItsOwnTrim(parts: seq<string>, sep: string)
    requires |parts| >= 1
    requires forall k :: 0 <= k < |parts| ==> parts[k] != "" && IsTrimmed(parts[k])
    ensures Trim(Join([Join(parts, sep)], " ")) == Join(parts, sep) != ""
  {
    JoinTrimmed(parts, sep);
    TrimOfTrimmed(Join(parts, sep));
  }

  lemma TrimAllOfTrimmed(xs: seq<string>)
    requires forall k :: 0 <= k < |xs| ==> IsTrimmed(xs[k])
    ensures TrimAll(xs) == xs
  {
    forall k | 0 <= k < |xs| ensures TrimAll(xs)[k] == xs[k] {
      TrimOfTrimmed(xs[k]);
    }
  }

  /** A join of non-empty trimmed pieces is non-empty and trimmed. */
  lemma {:induction false} JoinTrimmed(parts: seq<string>, sep: string)
    requires |parts| >= 1
    requires forall k :: 0 <= k < |parts| ==> parts[k] != "" && IsTrimmed(parts[k])
    ensures Join(parts, sep) != "" && IsTrimmed(Join(parts, sep))
    decreases |parts|
  {
    if |parts| > 1 {
      JoinTrimmed(parts[1..], sep);
      var tail := Join(parts[1..], sep);
      var s := parts[0] + sep + tail;
      assert Join(parts, sep) == s;
      assert s[0] == parts[0][0];
      assert s[|s| - 1] == tail[|tail| - 1];
    }
  }

  /** `buildCommand`: nothing for a `null` or blank line; otherwise the line
      is trimmed and split at every space, the first word (untrimmed) is the
      name and the other words, trimmed, the non-empty ones, are the
      arguments. Quotes get no special treatment. */
  function BuildCommand(command: Option<string>): (r: Option<CommandExecution>)
    ensures command.None? ==> r.None?
    ensures command.Some? ==> (r.None? <==> IsBlank(command.value))
    ensures r.Some? ==> r.value.name != "" && ' ' !in r.value.name
    ensures r.Some? ==> forall k :: 0 <= k < |r.value.arguments| ==>
                          r.value.arguments[k] != "" && IsTrimmed(r.value.arguments[k]) && ' ' !in r.value.arguments[k]
  {
    match command
    case None => None
    case Some(c) =>
      var words := Split(Trim(c), ' ');
      TrimEmptyIffBlank(c);
      if Trim(words[0]) == "" then None
      else Some(CommandExecution(words[0], ArgumentsOf(words[1..])))
  }

  /** The words after the name, trimmed, the empty ones dropped. */
  function ArgumentsOf(words: seq<string>): (r: seq<string>)
    requires forall k :: 0 <= k < |words| ==> ' ' !in words[k]
    ensures forall k :: 0 <= k < |r| ==> r[k] != "" && IsTrimmed(r[k]) && ' ' !in r[k]
  {
    var r := NonEmpty(TrimAll(words));
    forall k | 0 <= k < |r| ensures IsTrimmed(r[k]) && ' ' !in r[k] {
      var m :| 0 <= m < |words| && TrimAll(words)[m] == r[k];
      TrimKeepsAbsence(words[m], ' ');
    }
    r
  }

  /** A name and plain arguments written with single spaces build back into
      that command. */
  lemma BuildCommandJoin(name: string, args: seq<string>)
    requires IsWord(name)
    requires forall k :: 0 <= k < |args| ==> IsWord(args[k])
    ensures BuildCommand(Some(Join([name] + args, " "))) == Some(CommandExecution(name, args))
  {
    var words := [name] + args;
    forall k | 0 <= k < |words| ensures IsWord(words[k]) {
      if k > 0 { assert words[k] == args[k - 1]; }
    }
    WordsOfPhrase(words);
    assert words[1..] == args;
    TrimOfTrimmed(name);
    ArgumentsOfWords(args);
  }

  /** Plain words are kept as they are by `ArgumentsOf`. */
  lemma ArgumentsOfWords(args: seq<string>)
    requires forall k :: 0 <= k < |args| ==> IsWord(args[k])
    ensures forall k :: 0 <= k < |args| ==> ' ' !in args[k]
    ensures ArgumentsOf(args) == args
  {
    forall k | 0 <= k < |args| ensures args[k] != "" && IsTrimmed(args[k]) && ' ' !in args[k] {
      assert IsWord(args[k]);
    }
    TrimAllOfTrimmed(args);
  }

  /** Words joined with single spaces are their own trimmed phrase, and it
      splits at spaces back into those words. */
  lemma WordsOfPhrase(words: seq<string>)
    requires |words| >= 1
    requires forall k :: 0 <= k < |words| ==> IsWord(words[k])
    ensures Split(Trim(Join(words, " ")), ' ') == words
  {
    forall k | 0 <= k < |words| ensures words[k] != "" && IsTrimmed(words[k]) && ' ' !in words[k] {
      assert IsWord(words[k]);
    }
    JoinTrimmed(words, " ");
    TrimOfTrimmed(Join(words, " "));
    SplitJoin(words, ' ');
  }

  function LowerAll(names: seq<string>): (r: seq<string>)
    ensures |r| == |names|
    ensures forall k :: 0 <= k < |names| ==> r[k] == Lower(names[k])
  {
    seq(|names|, k requires 0 <= k < |names| => Lower(names[k]))
  }

  /** `getCommandList`: the lower-cased simple names of the registered
      classes, sorted, joined with `,`. */
  function CommandList(classNames: seq<string>): (r: string)
    ensures classNames == [] ==> r == ""
  {
    Join(SortLex(LowerAll(classNames)), ",")
  }

  /** Lower-casing keeps a `,` out. */
  lemma LowerKeepsCommaOut(n: string)
    requires ',' !in n
    ensures ',' !in Lower(n)
  {
    forall k | 0 <= k < |n| ensures Lower(n)[k] != ',' {
      assert n[k] != ',';
    }
  }

  /** The command list splits at `,` into every lower-cased name, each as
      often as it occurs, in the natural order of strings. */
  lemma CommandListSplits(classNames: seq<string>)
    requires |classNames| >= 1
    requires forall k :: 0 <= k < |classNames| ==> ',' !in classNames[k]
    ensures SortedLex(Split(CommandList(classNames), ','))
    ensures multiset(Split(CommandList(classNames), ',')) == multiset(LowerAll(classNames))
  {
    var lowered := LowerAll(classNames);
    var sorted := SortLex(lowered);
    assert |sorted| == |lowered| by {
      assert |multiset(sorted)| == |multiset(lowered)|;
    }
    forall k | 0 <= k < |sorted| ensures ',' !in sorted[k] {
      assert sorted[k] in multiset(lowered);
      var m :| 0 <= m < |lowered| && lowered[m] == sorted[k];
      LowerKeepsCommaOut(classNames[m]);
    }
    SplitJoin(sorted, ',');
  }

  /** One launcher per registered class under its lower-cased simple name;
      a later class under the same key replaces an earlier one. */
  function Launchers(classNames: seq<string>): (r: map<string, Action>)
    ensures r.Keys == set k | 0 <= k < |classNames| :: Lower(classNames[k])
    ensures forall key :: key in r ==> r[key].Launch? && r[key].className in classNames && Lower(r[key].className) == key
    decreases |classNames|
  {
    if |classNames| == 0 then map[]
    else
      var init := classNames[..|classNames| - 1];
      var last := classNames[|classNames| - 1];
      var m := Launchers(init);
      assert forall k :: 0 <= k < |init| ==> init[k] == classNames[k];
      m[Lower(last) := Launch(last)]
  }

  /** `getAvailableCommands`: the launchers, then `exit` and `help`, which
      replace a class of either name. */
  function AvailableCommands(classNames: seq<string>): (r: map<string, Action>)
    ensures "exit" in r && r["exit"] == Exit
    ensures "help" in r && r["help"] == Help
    ensures r.Keys == (set k | 0 <= k < |classNames| :: Lower(classNames[k])) + {"exit", "help"}
    ensures forall key :: key in r && key != "exit" && key != "help" ==>
              r[key].Launch? && r[key].className in classNames && Lower(r[key].className) == key
  {
    Launchers(classNames)["exit" := Exit]["help" := Help]
  }

  /** Every registered class whose name is not `exit` or `help` in any case
      can be launched by its name in any case. */
  lemma EveryClassIsAvailable(classNames: seq<string>, k: nat)
    requires k < |classNames|
    requires Lower(classNames[k]) != "exit" && Lower(classNames[k]) != "help"
    ensures Lower(classNames[k]) in AvailableCommands(classNames)
    ensures AvailableCommands(classNames)[Lower(classNames[k])].Launch?
  {
  }

  const HelpMessage: string :=
    "Available commands are: {}\nTo exit from shell please use 'exit' command\nTo get help with a certain command write: <command> -help"

  function Shows(events: seq<ConsoleEvent>): (r: seq<ShellEvent>)
    ensures |r| == |events|
    ensures forall k :: 0 <= k < |events| ==> r[k] == Shown(events[k])
  {
    seq(|events|, k requires 0 <= k < |events| => Shown(events[k]))
  }

  /** `executeCommand`. The name is looked up first, so an unknown name
      fails with that name as typed before the console is checked;
      `shell` is the console when it is a shell console (`None` otherwise).
      A class is launched with its arguments tokenized as a standalone's
      arguments, and `launch` gives what its `ignite` raises. */
  function ExecuteCommand(available: map<string, Action>, classNames: seq<string>, shell: Option<Console>,
                          launch: (string, seq<string>) -> Option<Failure>, line: Option<string>): (r: Step)
    ensures BuildCommand(line).None? ==> r == Step([], None)
    ensures BuildCommand(line).Some? && Lower(BuildCommand(line).value.name) !in available ==>
              r == Step([], Some(UnknownCommand(BuildCommand(line).value.name, CommandList(classNames))))
    ensures BuildCommand(line).Some? && Lower(BuildCommand(line).value.name) in available && shell.None? ==>
              r == Step([], Some(UnknownConsoleType))
    ensures r.raised.Some? && r.events != [] ==> r.events[0].Launched?
  {
    match BuildCommand(line)
    case None => Step([], None)
    case Some(cmd) =>
      var key := Lower(cmd.name);
      if key !in available then Step([], Some(UnknownCommand(cmd.name, CommandList(classNames))))
      else if shell.None? then Step([], Some(UnknownConsoleType))
      else
        match available[key]
        case Launch(n) =>
          var args := Tokenizer.Arguments(cmd.arguments);
          Step([Launched(n, args)], launch(n, args))
        case Exit => Step([Stopped], None)
        case Help => Step(Shows(Info(shell.value, Some(HelpMessage), [CommandList(classNames)])), None)
  }

  /** Command names are matched ignoring case: `EXIT`, `Exit` and `exit`
      all raise the stop flag, and `help` in any case shows the command
      list on the shell console. */
  lemma CommandNamesIgnoreCase(classNames: seq<string>, shell: Console, launch: (string, seq<string>) -> Option<Failure>, line: string)
    requires BuildCommand(Some(line)).Some?
    ensures var name := Lower(BuildCommand(Some(line)).value.name);
            var r := ExecuteCommand(AvailableCommands(classNames), classNames, Some(shell), launch, Some(line));
            && (name == "exit" ==> r == Step([Stopped], None))
            && (name == "help" ==> r == Step(Shows(Info(shell, Some(HelpMessage), [CommandList(classNames)])), None))
  {
  }

  /** A known name launches its class with the tokens of its arguments; the
      step fails exactly when that standalone's `ignite` does. */
  lemma LaunchRunsTheClass(classNames: seq<string>, shell: Console, launch: (string, seq<string>) -> Option<Failure>,
                           name: string, args: seq<string>, k: nat)
    requires IsWord(name) && forall j :: 0 <= j < |args| ==> IsWord(args[j])
    requires k < |classNames| && Lower(classNames[k]) == Lower(name)
    requires forall j :: 0 <= j < |classNames| && Lower(classNames[j]) == Lower(name) ==> classNames[j] == classNames[k]
    requires Lower(name) != "exit" && Lower(name) != "help"
    ensures var r := ExecuteCommand(AvailableCommands(classNames), classNames, Some(shell), launch, Some(Join([name] + args, " ")));
            r == Step([Launched(classNames[k], Tokenizer.Arguments(args))], launch(classNames[k], Tokenizer.Arguments(args)))
  {
    BuildCommandJoin(name, args);
    ClassLookup(classNames, name, k);
    ExecuteLaunch(AvailableCommands(classNames), classNames, shell, launch, Some(Join([name] + args, " ")), classNames[k]);
  }

  /** A name that only one registered class has, ignoring case, is a key of
      the command map that launches that class. */
  lemma ClassLookup(classNames: seq<string>, name: string, k: nat)
    requires k < |classNames| && Lower(classNames[k]) == Lower(name)
    requires forall j :: 0 <= j < |classNames| && Lower(classNames[j]) == Lower(name) ==> classNames[j] == classNames[k]
    requires Lower(name) != "exit" && Lower(name) != "help"
    ensures Lower(name) in AvailableCommands(classNames)
    ensures AvailableCommands(classNames)[Lower(name)] == Launch(classNames[k])
  {
    var m := AvailableCommands(classNames);
    assert Lower(name) in m;
    var j :| 0 <= j < |classNames| && classNames[j] == m[Lower(name)].className;
  }

  /** A command whose name is the key of a launcher launches that class
      with the tokens of its arguments. */
  lemma ExecuteLaunch(available: map<string, Action>, classNames: seq<string>, shell: Console,
                      launch: (string, seq<string>) -> Option<Failure>, line: Option<string>, className: string)
    requires BuildCommand(line).Some?
    requires Lower(BuildCommand(line).value.name) in available
    requires available[Lower(BuildCommand(line).value.name)] == Launch(className)
    ensures var args := Tokenizer.Arguments(BuildCommand(line).value.arguments);
            ExecuteCommand(available, classNames, Some(shell), launch, line) == Step([Launched(className, args)], launch(className, args))
  {
  }

  /** The loop of `batchExecution` for the command executor `execute`: the
      commands in order, each trimmed, blank ones skipped; the first failure
      escapes and ends the batch. The stop flag is not consulted. */
  function RunBatch(execute: string -> Step, commands: seq<string>): (r: Step)
    ensures r.raised.None? <==> forall k :: 0 <= k < |commands| && Trim(commands[k]) != "" ==>
              execute(Trim(commands[k])).raised.None?
    ensures r.raised.Some? ==>
              exists k :: 0 <= k < |commands| && Trim(commands[k]) != "" && execute(Trim(commands[k])).raised == r.raised
                          && forall j :: 0 <= j < k && Trim(commands[j]) != "" ==> execute(Trim(commands[j])).raised.None?
  {
    if |commands| == 0 then Step([], None)
    else
      var rest := RunBatch(execute, commands[1..]);
      assert forall k :: 1 <= k < |commands| ==> commands[1..][k - 1] == commands[k];
      var c := Trim(commands[0]);
      if c == "" then rest
      else
        var step := execute(c);
        if step.raised.Some? then step
        else Step(step.events + rest.events, rest.raised)
  }

  /** The events of every non-blank command, each run on its own, in order. */
  function BatchEvents(execute: string -> Step, commands: seq<string>): seq<ShellEvent> {
    if |commands| == 0 then []
    else (if Trim(commands[0]) == "" then [] else execute(Trim(commands[0])).events) + BatchEvents(execute, commands[1..])
  }

  /** A batch whose commands all succeed shows the events of every
      non-blank command, in order. */
  lemma {:induction false} RunBatchSucceeds(execute: string -> Step, commands: seq<string>)
    requires forall k :: 0 <= k < |commands| && Trim(commands[k]) != "" ==> execute(Trim(commands[k])).raised.None?
    ensures RunBatch(execute, commands) == Step(BatchEvents(execute, commands), None)
  {
    if |commands| > 0 {
      var tail := commands[1..];
      forall k | 0 <= k < |tail| && Trim(tail[k]) != "" ensures execute(Trim(tail[k])).raised.None? {
        assert tail[k] == commands[k + 1];
      }
      RunBatchSucceeds(execute, tail);
    }
  }

  /** The first failing non-blank command ends the batch: the batch shows
      the events of the non-blank commands before it and then its own, and
      its failure escapes. */
  lemma {:induction false} RunBatchStopsAtFirstFailure(execute: string -> Step, commands: seq<string>, k: nat)
    requires k < |commands| && Trim(commands[k]) != "" && execute(Trim(commands[k])).raised.Some?
    requires forall j :: 0 <= j < k && Trim(commands[j]) != "" ==> execute(Trim(commands[j])).raised.None?
    ensures RunBatch(execute, commands)
            == Step(BatchEvents(execute, commands[..k]) + execute(Trim(commands[k])).events, execute(Trim(commands[k])).raised)
    decreases k
  {
    var failing := execute(Trim(commands[k]));
    if k == 0 {
      assert commands[..0] == [];
      assert [] + failing.events == failing.events;
    } else {
      var tail := commands[1..];
      FirstFailingCommandInTail(execute, commands, k);
      RunBatchStopsAtFirstFailure(execute, tail, k - 1);
      RunBatchStep(execute, commands);
      BatchEventsOfPrefix(execute, commands, k);
      var head := if Trim(commands[0]) == "" then [] else execute(Trim(commands[0])).events;
      var before := BatchEvents(execute, tail[..k - 1]);
      AppendAssociates(head, before, failing.events);
    }
  }

  lemma AppendAssociates<T>(a: seq<T>, b: seq<T>, c: seq<T>)
    ensures a + (b + c) == (a + b) + c
  {
  }

  /** The first failing non-blank command of `commands` is, one place
      earlier, the first failing non-blank command of its tail. */
  lemma FirstFailingCommandInTail(execute: string -> Step, commands: seq<string>, k: nat)
    requires 0 < k < |commands| && Trim(commands[k]) != "" && execute(Trim(commands[k])).raised.Some?
    requires forall j :: 0 <= j < k && Trim(commands[j]) != "" ==> execute(Trim(commands[j])).raised.None?
    ensures Trim(commands[1..][k - 1]) != "" && execute(Trim(commands[1..][k - 1])).raised.Some?
    ensures forall j :: 0 <= j < k - 1 && Trim(commands[1..][j]) != "" ==> execute(Trim(commands[1..][j])).raised.None?
  {
    var tail := commands[1..];
    forall j | 0 <= j < k - 1 && Trim(tail[j]) != "" ensures execute(Trim(tail[j])).raised.None? {
      assert tail[j] == commands[j + 1];
    }
  }

  /** One step of a batch whose first command does not fail. */
  lemma RunBatchStep(execute: string -> Step, commands: seq<string>)
    requires |commands| > 0
    requires Trim(commands[0]) != "" ==> execute(Trim(commands[0])).raised.None?
    ensures var head := if Trim(commands[0]) == "" then [] else execute(Trim(commands[0])).events;
            var rest := RunBatch(execute, commands[1..]);
            RunBatch(execute, commands) == Step(head + rest.events, rest.raised)
  {
    if Trim(commands[0]) == "" {
      assert [] + RunBatch(execute, commands[1..]).events == RunBatch(execute, commands[1..]).events;
    }
  }

  /** The events of a prefix: its first command's, then those of the rest. */
  lemma BatchEventsOfPrefix(execute: string -> Step, commands: seq<string>, k: nat)
    requires 0 < k <= |commands|
    ensures BatchEvents(execute, commands[..k])
            == (if Trim(commands[0]) == "" then [] else execute(Trim(commands[0])).events) + BatchEvents(execute, commands[1..][..k - 1])
  {
    assert commands[..k][0] == commands[0];
    assert commands[..k][1..] == commands[1..][..k - 1];
  }

  /** `executeCommand` on one trimmed command line. */
  function Executor(available: map<string, Action>, classNames: seq<string>, shell: Option<Console>,
                    launch: (string, seq<string>) -> Option<Failure>): string -> Step
  {
    c => ExecuteCommand(available, classNames, shell, launch, Some(c))
  }

  /** `batchExecution`: `executeCommand` on each non-blank command in turn.
      Without a failure the events are those of every such command, in
      order; otherwise the first failing command ends the batch after its
      own events, and its failure escapes. */
  function BatchExecution(available: map<string, Action>, classNames: seq<string>, shell: Option<Console>,
                          launch: (string, seq<string>) -> Option<Failure>, commands: seq<string>): (r: Step)
    ensures var execute := Executor(available, classNames, shell, launch);
            r.raised.None? <==> forall k :: 0 <= k < |commands| && Trim(commands[k]) != "" ==>
                                  execute(Trim(commands[k])).raised.None?
    ensures var execute := Executor(available, classNames, shell, launch);
            r.raised.None? ==> r == Step(BatchEvents(execute, commands), None)
    ensures var execute := Executor(available, classNames, shell, launch);
            r.raised.Some? ==>
              exists k :: 0 <= k < |commands| && Trim(commands[k]) != "" && execute(Trim(commands[k])).raised.Some?
                          && (forall j :: 0 <= j < k && Trim(commands[j]) != "" ==> execute(Trim(commands[j])).raised.None?)
                          && r == Step(BatchEvents(execute, commands[..k]) + execute(Trim(commands[k])).events,
                                       execute(Trim(commands[k])).raised)
  {
    BatchOutcome(Executor(available, classNames, shell, launch), commands);
    RunBatch(Executor(available, classNames, shell, launch), commands)
  }

  /** A batch either runs every non-blank command or stops at the first
      failing one. */
  lemma BatchOutcome(execute: string -> Step, commands: seq<string>)
    ensures RunBatch(execute, commands).raised.None? ==> RunBatch(execute, commands) == Step(BatchEvents(execute, commands), None)
    ensures RunBatch(execute, commands).raised.Some? ==>
              exists k :: 0 <= k < |commands| && Trim(commands[k]) != "" && execute(Trim(commands[k])).raised.Some?
                          && (forall j :: 0 <= j < k && Trim(commands[j]) != "" ==> execute(Trim(commands[j])).raised.None?)
                          && RunBatch(execute, commands)
                             == Step(BatchEvents(execute, commands[..k]) + execute(Trim(commands[k])).events,
                                     execute(Trim(commands[k])).raised)
  {
    var r := RunBatch(execute, commands);
    if r.raised.None? {
      RunBatchSucceeds(execute, commands);
    } else {
      var k :| 0 <= k < |commands| && Trim(commands[k]) != "" && execute(Trim(commands[k])).raised == r.raised
               && forall j :: 0 <= j < k && Trim(commands[j]) != "" ==> execute(Trim(commands[j])).raised.None?;
      RunBatchStopsAtFirstFailure(execute, commands, k);
    }
  }

  /** `exit` in a batch raises the stop flag and the batch goes on with the
      next command. */
  lemma ExitDoesNotEndBatch(classNames: seq<string>, shell: Console, launch: (string, seq<string>) -> Option<Failure>,
                            rest: seq<string>)
    ensures var batch := BatchExecution(AvailableCommands(classNames), classNames, Some(shell), launch, ["exit"] + rest);
            var after := BatchExecution(AvailableCommands(classNames), classNames, Some(shell), launch, rest);
            batch == Step([Stopped] + after.events, after.raised)
  {
    var cmds := ["exit"] + rest;
    assert cmds[1..] == rest;
    ExitStops(classNames, shell, launch);
  }

  /** `exit` alone raises the stop flag and nothing else. */
  lemma ExitStops(classNames: seq<string>, shell: Console, launch: (string, seq<string>) -> Option<Failure>)
    ensures Trim("exit") == "exit"
    ensures ExecuteCommand(AvailableCommands(classNames), classNames, Some(shell), launch, Some("exit")) == Step([Stopped], None)
  {
    TrimOfTrimmed("exit");
    BuildExit();
    assert Lower("exit") == "exit";
  }

  lemma BuildExit()
    ensures BuildCommand(Some("exit")) == Some(CommandExecution("exit", []))
  {
    BuildCommandJoin("exit", []);
    assert Join(["exit"] + [], " ") == "exit";
  }

  /** The way the shell starts. */
  datatype Mode = Interactive | Batch(step: Step)

  /** `ShellAdapter.startup`: without a standalone it fails; with no command
      in the standalone's arguments it goes interactive, otherwise it runs
      the commands as a batch. */
  function ShellStartup(classNames: seq<string>, shell: Option<Console>, launch: (string, seq<string>) -> Option<Failure>,
                        standaloneArguments: Option<seq<string>>): (r: Result<Mode, Failure>)
    ensures standaloneArguments.None? <==> r == Err(NoStandaloneInstance)
    ensures r.Ok? ==> (r.value.Interactive? <==> SplitCommands(standaloneArguments.value) == [])
  {
    match standaloneArguments
    case None => Err(NoStandaloneInstance)
    case Some(args) =>
      var commands := SplitCommands(args);
      if commands == [] then Ok(Interactive)
      else Ok(Batch(BatchExecution(AvailableCommands(classNames), classNames, shell, launch, commands)))
  }

  /** Commands written into one argument, separated by `;`, are run as a
      batch of exactly those commands, in order. */
  lemma ShellRunsJoinedCommands(classNames: seq<string>, shell: Option<Console>, launch: (string, seq<string>) -> Option<Failure>,
                                cmds: seq<string>)
    requires |cmds| >= 1
    requires forall k :: 0 <= k < |cmds| ==> cmds[k] != "" && IsTrimmed(cmds[k]) && ';' !in cmds[k]
    ensures ShellStartup(classNames, shell, launch, Some([Join(cmds, ";")]))
            == Ok(Batch(BatchExecution(AvailableCommands(classNames), classNames, shell, launch, cmds)))
  {
    SplitCommandsJoin(cmds);
  }
}

=== FILE: text.dfy ===
/** The handful of java.lang.String operations the core relies on, written
    out over `seq<char>`: trim, startsWith, indexOf, join, split on one
    character, ASCII case mapping and the natural (lexicographic) order. */
module Text {
  import opened Base

  /** `String.trim` strips every char whose code is at or below U+0020. */
  predicate IsBlankChar(c: char) {
    c <= ' '
  }

  /** Neither end of `s` is a char that `trim` would strip. */
  predicate IsTrimmed(s: string) {
    |s| == 0 || (!IsBlankChar(s[0]) && !IsBlankChar(s[|s| - 1]))
  }

  predicate IsBlank(s: string) {
    forall k :: 0 <= k < |s| ==> IsBlankChar(s[k])
  }

  /** The first position at or after `i` that holds a non-blank char, or the
      end of `s`. */
  function SkipBlanks(s: string, i: nat): (r: nat)
    requires i <= |s|
    ensures i <= r <= |s|
    ensures forall k :: i <= k < r ==> IsBlankChar(s[k])
    ensures r < |s| ==> !IsBlankChar(s[r])
    decreases |s| - i
  {
    if i == |s| || !IsBlankChar(s[i]) then i else SkipBlanks(s, i + 1)
  }

  /** The smallest end, between `lo` and `j`, after which `s[.. j)` holds only
      blank chars. */
  function SkipBlanksBack(s: string, lo: nat, j: nat): (r: nat)
    requires lo <= j <= |s|
    ensures lo <= r <= j
    ensures forall k :: r <= k < j ==> IsBlankChar(s[k])
    ensures r > lo ==> !IsBlankChar(s[r - 1])
    decreases j
  {
    if j == lo || !IsBlankChar(s[j - 1]) then j else SkipBlanksBack(s, lo, j - 1)
  }

  /** `String.trim`: the text between the leading and the trailing blanks. */
  function Trim(s: string): (r: string)
    ensures IsTrimmed(r)
    ensures |r| <= |s|
  {
    var i := SkipBlanks(s, 0);
    s[i..SkipBlanksBack(s, i, |s|)]
  }

  /** `trim` removes only blank chars, from the two ends: together with
      `IsTrimmed` this pins the result down. */
  lemma TrimRemovesBlankEnds(s: string) returns (front: string, back: string)
    ensures s == front + Trim(s) + back
    ensures IsBlank(front) && IsBlank(back)
  {
    var i := SkipBlanks(s, 0);
    var j := SkipBlanksBack(s, i, |s|);
    front, back := s[..i], s[j..];
    assert s == s[..i] + s[i..j] + s[j..];
  }

  /** A string whose ends are not blank is left alone by `trim`. */
  lemma TrimOfTrimmed(s: string)
    requires IsTrimmed(s)
    ensures Trim(s) == s
  {
  }

  /** `trim` yields the empty string exactly when every char is blank. */
  lemma TrimEmptyIffBlank(s: string)
    ensures Trim(s) == "" <==> IsBlank(s)
  {
    var i := SkipBlanks(s, 0);
    if i < |s| {
      assert SkipBlanksBack(s, i, |s|) > i;
    }
  }

  /** Trimming a trimmed word followed by blanks gives the word back. */
  lemma TrimDropsTrailingBlanks(w: string, pad: string)
    requires IsTrimmed(w) && IsBlank(pad)
    ensures Trim(w + pad) == w
  {
    var s := w + pad;
    if |w| == 0 {
      assert s == pad;
      TrimEmptyIffBlank(s);
    } else {
      assert s[0] == w[0];
      var j := SkipBlanksBack(s, 0, |s|);
      assert s[|w| - 1] == w[|w| - 1];
      assert forall k :: |w| <= k < |s| ==> s[k] == pad[k - |w|];
      assert j == |w|;
      assert s[..|w|] == w;
    }
  }

  predicate StartsWith(s: string, prefix: string) {
    |prefix| <= |s| && s[..|prefix|] == prefix
  }

  predicate EndsWith(s: string, suffix: string) {
    |suffix| <= |s| && s[|s| - |suffix|..] == suffix
  }

  /** `String.indexOf(char)`: the first position of `c`, if any. */
  function IndexOf(s: string, c: char): (r: Option<nat>)
    ensures r.Some? ==> r.value < |s| && s[r.value] == c
    ensures forall k :: 0 <= k < |s| && (r.None? || k < r.value) ==> s[k] != c
  {
    if |s| == 0 then None
    else if s[0] == c then Some(0)
    else match IndexOf(s[1..], c)
      case None => None
      case Some(i) => Some(i + 1)
  }

  /** `String.join(sep, parts)` and `Collectors.joining(sep)`. */
  function Join(parts: seq<string>, sep: string): string
  {
    if |parts| == 0 then ""
    else if |parts| == 1 then parts[0]
    else parts[0] + sep + Join(parts[1..], sep)
  }

  /** Splits `s` at every `c`, keeping empty pieces: the first piece is the
      text before the first `c` and joining the pieces back with `c` rebuilds `s`. */
  function Split(s: string, c: char): (r: seq<string>)
    ensures |r| >= 1
    ensures forall k :: 0 <= k < |r| ==> c !in r[k]
    ensures Join(r, [c]) == s
    ensures IndexOf(s, c).None? ==> r == [s]
    ensures IndexOf(s, c).Some? ==> r[0] == s[..IndexOf(s, c).value] && |r| >= 2
    decreases |s|
  {
    match IndexOf(s, c)
    case None => [s]
    case Some(i) =>
      var rest := Split(s[i + 1..], c);
      assert c !in s[..i] by {
        forall k | 0 <= k < i ensures s[..i][k] != c { }
      }
      assert s == s[..i] + [c] + s[i + 1..];
      [s[..i]] + rest
  }

  /** Splitting a join of `c`-free pieces gives the pieces back. */
  lemma {:induction false} SplitJoin(parts: seq<string>, c: char)
    requires |parts| >= 1
    requires forall k :: 0 <= k < |parts| ==> c !in parts[k]
    ensures Split(Join(parts, [c]), c) == parts
    decreases |parts|
  {
    if |parts| == 1 {
      assert IndexOf(parts[0], c).None?;
    } else {
      var s := Join(parts, [c]);
      assert s == parts[0] + [c] + Join(parts[1..], [c]);
      var i := |parts[0]|;
      assert s[i] == c;
      assert forall k :: 0 <= k < i ==> s[k] == parts[0][k];
      assert IndexOf(s, c) == Some(i);
      assert s[..i] == parts[0];
      assert s[i + 1..] == Join(parts[1..], [c]);
      SplitJoin(parts[1..], c);
    }
  }

  /** `Character.toLowerCase` restricted to ASCII letters. */
  function LowerChar(c: char): char {
    if 'A' <= c <= 'Z' then (c as int + 32) as char else c
  }

  /** `String.toLowerCase` restricted to ASCII letters. */
  function Lower(s: string): (r: string)
    ensures |r| == |s|
    ensures forall k :: 0 <= k < |s| ==> r[k] == LowerChar(s[k])
  {
    seq(|s|, k requires 0 <= k < |s| => LowerChar(s[k]))
  }

  /** `String.equalsIgnoreCase` restricted to ASCII letters. */
  predicate EqualsIgnoreCase(a: string, b: string) {
    |a| == |b| && forall k :: 0 <= k < |a| ==> LowerChar(a[k]) == LowerChar(b[k])
  }

  lemma EqualsIgnoreCaseIffLowerEqual(a: string, b: string)
    ensures EqualsIgnoreCase(a, b) <==> Lower(a) == Lower(b)
  {
    if Lower(a) == Lower(b) {
      forall k | 0 <= k < |a| ensures LowerChar(a[k]) == LowerChar(b[k]) {
        assert Lower(a)[k] == Lower(b)[k];
      }
    }
  }

  /** `String.compareTo(a, b) <= 0`, char by char with a proper prefix
      first. Chars compare as Unicode scalar values, which agrees with
      Java's UTF-16 code-unit order inside the Basic Multilingual Plane. */
  predicate LexLeq(a: string, b: string)
    decreases |a|
  {
    if |a| == 0 then true
    else if |b| == 0 then false
    else if a[0] != b[0] then a[0] < b[0]
    else LexLeq(a[1..], b[1..])
  }

  lemma {:induction false} LexLeqTotal(a: string, b: string)
    ensures LexLeq(a, b) || LexLeq(b, a)
    decreases |a|
  {
    if |a| > 0 && |b| > 0 && a[0] == b[0] {
      LexLeqTotal(a[1..], b[1..]);
    }
  }

  lemma {:induction false} LexLeqTransitive(a: string, b: string, c: string)
    requires LexLeq(a, b) && LexLeq(b, c)
    ensures LexLeq(a, c)
    decreases |a|
  {
    if |a| > 0 && |b| > 0 && |c| > 0 && a[0] == b[0] && b[0] == c[0] {
      LexLeqTransitive(a[1..], b[1..], c[1..]);
    }
  }

  lemma {:induction false} LexLeqAntisymmetric(a: string, b: string)
    requires LexLeq(a, b) && LexLeq(b, a)
    ensures a == b
    decreases |a|
  {
    if |a| > 0 && |b| > 0 {
      LexLeqAntisymmetric(a[1..], b[1..]);
      assert a == [a[0]] + a[1..];
      assert b == [b[0]] + b[1..];
    }
  }

  predicate SortedLex(xs: seq<string>) {
    forall i, j :: 0 <= i < j < |xs| ==> LexLeq(xs[i], xs[j])
  }

  function Insert(x: string, xs: seq<string>): (r: seq<string>)
    requires SortedLex(xs)
    ensures SortedLex(r)
    ensures multiset(r) == multiset(xs) + multiset{x}
    ensures |r| == |xs| + 1
  {
    if |xs| == 0 then [x]
    else if LexLeq(x, xs[0]) then
      assert forall j :: 0 <= j < |xs| ==> LexLeq(x, xs[j]) by {
        forall j | 0 <= j < |xs| ensures LexLeq(x, xs[j]) {
          if j > 0 { LexLeqTransitive(x, xs[0], xs[j]); }
        }
      }
      [x] + xs
    else
      var rest := Insert(x, xs[1..]);
      LexLeqTotal(x, xs[0]);
      assert forall j :: 0 <= j < |rest| ==> LexLeq(xs[0], rest[j]) by {
        forall j | 0 <= j < |rest| ensures LexLeq(xs[0], rest[j]) {
          assert rest[j] in multiset(rest);
          assert rest[j] in multiset(xs[1..]) || rest[j] == x;
          if rest[j] != x {
            var m :| 0 <= m < |xs[1..]| && xs[1..][m] == rest[j];
            assert xs[m + 1] == rest[j];
          }
        }
      }
      assert xs == [xs[0]] + xs[1..];
      [xs[0]] + rest
  }

  /** The order `Stream.sorted()` gives strings: sorted, and a permutation
      of the input. */
  function SortLex(xs: seq<string>): (r: seq<string>)
    ensures SortedLex(r)
    ensures multiset(r) == multiset(xs)
  {
    if |xs| == 0 then []
    else
      assert xs == [xs[0]] + xs[1..];
      Insert(xs[0], SortLex(xs[1..]))
  }
}

=== FILE: tokenizer.dfy ===
/** `StandaloneBuilder.arguments`: argv is joined with single spaces and the
    logical arguments are the successive `find()` matches of

      (?<argument>([^ ]*".*")(?:[ ])|([^ ]*".*")(?:$)|([^ ]*)(?:[ ])|([^ ]*)(?:$))

    each trimmed. Alternatives are tried left to right and every quantifier is
    greedy with backtracking, so the match at a position is the one with the
    LAST opening quote in the first word and, for it, the LAST closing quote
    that fits. `.` does not cross a line terminator and `$` is java.util.regex's
    non-multiline dollar. */
module Tokenizer {
  import opened Base
  import opened Text

  /** The chars java.util.regex treats as line terminators (UNIX_LINES off). */
  predicate IsLineTerminator(c: char) {
    c == '\n' || c == '\r' || c == '\U{0085}' || c == '\U{2028}' || c == '\U{2029}'
  }

  /** Where a non-multiline `$` matches: at the end of input, before a final
      line terminator (but not between a final "\r\n"), or before a final "\r\n". */
  predicate DollarAt(s: string, k: nat)
    requires k <= |s|
  {
    || k == |s|
    || (k + 1 == |s| && IsLineTerminator(s[k]) && !(s[k] == '\n' && k > 0 && s[k - 1] == '\r'))
    || (k + 2 == |s| && s[k] == '\r' && s[k + 1] == '\n')
  }

  /** No `c` in `s[i..j)`. */
  predicate NoneIn(s: string, i: nat, j: nat, c: char)
    requires i <= j <= |s|
  {
    forall k :: i <= k < j ==> s[k] != c
  }

  predicate NoLineTerminatorIn(s: string, i: nat, j: nat)
    requires i <= j <= |s|
  {
    forall k :: i <= k < j ==> !IsLineTerminator(s[k])
  }

  /** End of the space-free run starting at `i`: what a greedy `[^ ]*` consumes. */
  function RunEnd(s: string, i: nat): (r: nat)
    requires i <= |s|
    ensures i <= r <= |s|
    ensures NoneIn(s, i, r, ' ')
    ensures r < |s| ==> s[r] == ' '
    decreases |s| - i
  {
    if i == |s| || s[i] == ' ' then i else RunEnd(s, i + 1)
  }

  /** End of what a greedy `.*` starting at `i` can consume. */
  function LineEnd(s: string, i: nat): (r: nat)
    requires i <= |s|
    ensures i <= r <= |s|
    ensures NoLineTerminatorIn(s, i, r)
    ensures r < |s| ==> IsLineTerminator(s[r])
    decreases |s| - i
  {
    if i == |s| || IsLineTerminator(s[i]) then i else LineEnd(s, i + 1)
  }

  /** A closing `"` at `q`, followed by a space (first alternative) or by `$`
      (second alternative). */
  predicate ClosesAt(s: string, q: nat, spaced: bool)
    requires q < |s|
  {
    s[q] == '"' && (if spaced then q + 1 < |s| && s[q + 1] == ' ' else DollarAt(s, q + 1))
  }

  /** Backtracking `.*"` after an opening quote at `p`: the largest closing
      position below `hi`, and none between it and `hi`. */
  function LastClose(s: string, p: nat, hi: nat, spaced: bool): (r: Option<nat>)
    requires p < hi <= |s|
    ensures r.Some? ==> p < r.value < hi && ClosesAt(s, r.value, spaced)
    decreases hi
  {
    if hi == p + 1 then None
    else if ClosesAt(s, hi - 1, spaced) then Some(hi - 1)
    else LastClose(s, p, hi - 1, spaced)
  }

  /** Greediness of `.*`: no closing position lies beyond the one chosen. */
  lemma {:induction false} LastCloseIsLast(s: string, p: nat, hi: nat, spaced: bool, q: nat)
    requires p < q < hi <= |s|
    requires LastClose(s, p, hi, spaced).None? || LastClose(s, p, hi, spaced).value < q
    ensures !ClosesAt(s, q, spaced)
    decreases hi
  {
    if q < hi - 1 {
      LastCloseIsLast(s, p, hi - 1, spaced, q);
    }
  }

  /** The closing quote the regex pairs with an opening quote at `p`. */
  function CloseFor(s: string, p: nat, spaced: bool): Option<nat>
    requires p < |s|
  {
    LastClose(s, p, LineEnd(s, p + 1), spaced)
  }

  /** Backtracking `[^ ]*"` over the first word `[i, hi)`: the largest opening
      quote position that has a closing quote, with that closing quote. */
  function LastOpen(s: string, i: nat, hi: nat, spaced: bool): (r: Option<(nat, nat)>)
    requires i <= hi <= |s|
    ensures r.Some? ==> i <= r.value.0 < hi && s[r.value.0] == '"'
                        && CloseFor(s, r.value.0, spaced) == Some(r.value.1)
    decreases hi
  {
    if hi == i then None
    else if s[hi - 1] == '"' && CloseFor(s, hi - 1, spaced).Some? then
      Some((hi - 1, CloseFor(s, hi - 1, spaced).value))
    else LastOpen(s, i, hi - 1, spaced)
  }

  /** Greediness of `[^ ]*`: no quote beyond the chosen one, inside the first
      word, has a closing quote of its own. */
  lemma {:induction false} LastOpenIsLast(s: string, i: nat, hi: nat, spaced: bool, p: nat)
    requires i <= p < hi <= |s|
    requires LastOpen(s, i, hi, spaced).None? || LastOpen(s, i, hi, spaced).value.0 < p
    ensures !(s[p] == '"' && CloseFor(s, p, spaced).Some?)
    decreases hi
  {
    if p < hi - 1 {
      LastOpenIsLast(s, i, hi - 1, spaced, p);
    }
  }

  /** End of the regex match that `find()` reports when it starts searching
      at `i`. Some alternative always matches at `i` itself (the last two
      never fail), and the match is empty only at the end of the input. */
  function MatchEnd(s: string, i: nat): (r: nat)
    requires i <= |s|
    ensures i <= r <= |s|
    ensures r == i <==> i == |s|
    ensures NoneIn(s, i, RunEnd(s, i), '"') ==>
              r == (if RunEnd(s, i) < |s| then RunEnd(s, i) + 1 else |s|)
  {
    var run := RunEnd(s, i);
    match LastOpen(s, i, run, true)
    case Some((p, q)) => q + 2
    case None =>
      match LastOpen(s, i, run, false)
      case Some((p, q)) => q + 1
      case None => if run < |s| then run + 1 else |s|
  }

  /** The successive `find()` matches from `pos`, each trimmed. After an empty
      match `find()` resumes one char later, so the scan stops right after
      the empty match at the end of the input. */
  function Scan(s: string, pos: nat): (r: seq<string>)
    requires pos <= |s|
    ensures |r| >= 1 && r[|r| - 1] == ""
    decreases |s| - pos
  {
    var e := MatchEnd(s, pos);
    if e == pos then [""]
    else
      var rest := Scan(s, e);
      assert ([Trim(s[pos..e])] + rest)[|rest|] == rest[|rest| - 1];
      [Trim(s[pos..e])] + rest
  }

  predicate AllTrimmed(ts: seq<string>) {
    forall k :: 0 <= k < |ts| ==> IsTrimmed(ts[k])
  }

  /** Every token of a scan is trimmed. */
  lemma {:induction false} ScanTrimmed(s: string, pos: nat)
    requires pos <= |s|
    ensures AllTrimmed(Scan(s, pos))
    decreases |s| - pos
  {
    var e := MatchEnd(s, pos);
    if e != pos {
      ScanTrimmed(s, e);
      var t := Trim(s[pos..e]);
      assert Scan(s, pos) == [t] + Scan(s, e);
      ConsTrimmed(t, Scan(s, e));
    }
  }

  /** A trimmed token put in front of trimmed tokens keeps them all trimmed. */
  lemma ConsTrimmed(t: string, rest: seq<string>)
    requires IsTrimmed(t) && AllTrimmed(rest)
    ensures AllTrimmed([t] + rest)
  {
    forall k | 0 <= k < |rest| + 1 ensures IsTrimmed(([t] + rest)[k]) {
      if k > 0 {
        assert ([t] + rest)[k] == rest[k - 1];
      }
    }
  }

  /** `StandaloneBuilder.arguments`: an empty argv gives no tokens; otherwise
      every token is trimmed and the last one is the empty match at the end. */
  function Arguments(argv: seq<string>): (r: seq<string>)
    ensures |argv| == 0 <==> |r| == 0
    ensures AllTrimmed(r)
    ensures |r| > 0 ==> r[|r| - 1] == ""
  {
    if |argv| == 0 then []
    else
      ScanTrimmed(Join(argv, " "), 0);
      Scan(Join(argv, " "), 0)
  }

  /** An argv entry that is a word on its own: non-empty, trimmed, with no
      space and no double quote (other blank chars may sit inside it). */
  predicate IsPlainEntry(e: string) {
    |e| > 0 && IsTrimmed(e) && forall k :: 0 <= k < |e| ==> e[k] != ' ' && e[k] != '"'
  }

  /** For plain entries the tokenizer gives back exactly the entries, in
      order, followed by the one empty token of the final empty match. */
  lemma PlainArguments(argv: seq<string>)
    requires |argv| > 0
    requires forall k :: 0 <= k < |argv| ==> IsPlainEntry(argv[k])
    ensures Arguments(argv) == argv + [""]
  {
    var s := Join(argv, " ");
    ScanPlain(s, 0, argv);
  }

  /** `RunEnd` is the one end that closes a space-free run. */
  lemma {:induction false} RunEndAt(s: string, i: nat, w: nat)
    requires i <= w <= |s|
    requires NoneIn(s, i, w, ' ')
    requires w < |s| ==> s[w] == ' '
    ensures RunEnd(s, i) == w
    decreases w - i
  {
    if i < w {
      RunEndAt(s, i + 1, w);
    }
  }

  /** The layout of a join of plain entries around its first entry. */
  lemma PlainHead(s: string, pos: nat, es: seq<string>)
    requires pos <= |s| && |es| > 0
    requires forall k :: 0 <= k < |es| ==> IsPlainEntry(es[k])
    requires s[pos..] == Join(es, " ")
    ensures pos + |es[0]| <= |s| && s[pos..pos + |es[0]|] == es[0]
    ensures NoneIn(s, pos, pos + |es[0]|, ' ') && NoneIn(s, pos, pos + |es[0]|, '"')
    ensures pos + |es[0]| == |s| <==> |es| == 1
    ensures pos + |es[0]| < |s| ==>
              s[pos + |es[0]|] == ' ' && s[pos + |es[0]| + 1..] == Join(es[1..], " ")
  {
    var e := es[0];
    var w := pos + |e|;
    if |es| > 1 {
      assert s[pos..] == e + " " + Join(es[1..], " ");
      assert s[pos..][|e|] == ' ';
      assert s[w + 1..] == s[pos..][|e| + 1..];
    }
    assert s[pos..w] == s[pos..][..|e|];
    forall k | pos <= k < w ensures s[k] != ' ' && s[k] != '"' {
      assert s[k] == e[k - pos];
    }
  }

  /** The first match over a join of plain entries is the first entry and
      its space, and the scan goes on right after it. */
  lemma PlainFirstToken(s: string, pos: nat, es: seq<string>) returns (m: nat)
    requires pos <= |s| && |es| > 0
    requires forall k :: 0 <= k < |es| ==> IsPlainEntry(es[k])
    requires s[pos..] == Join(es, " ")
    ensures pos < m <= |s| && Scan(s, pos) == [es[0]] + Scan(s, m)
    ensures m == |s| <==> |es| == 1
    ensures m < |s| ==> s[m..] == Join(es[1..], " ")
  {
    var e := es[0];
    var w := pos + |e|;
    PlainHead(s, pos, es);
    RunEndAt(s, pos, w);
    m := MatchEnd(s, pos);
    if w < |s| {
      assert m == w + 1;
      assert s[pos..m] == e + " ";
      TrimDropsTrailingBlanks(e, " ");
    } else {
      assert m == |s|;
      assert s[pos..m] == e + "";
      TrimDropsTrailingBlanks(e, "");
    }
  }

  /** At the end of the input the scan yields only the final empty match. */
  lemma ScanAtEnd(s: string)
    ensures Scan(s, |s|) == [""]
  {
  }

  lemma {:induction false} ScanPlain(s: string, pos: nat, es: seq<string>)
    requires pos <= |s| && |es| > 0
    requires forall k :: 0 <= k < |es| ==> IsPlainEntry(es[k])
    requires s[pos..] == Join(es, " ")
    ensures Scan(s, pos) == es + [""]
    decreases |es|
  {
    var m := PlainFirstToken(s, pos, es);
    if |es| > 1 {
      var tail := es[1..];
      forall k | 0 <= k < |tail| ensures IsPlainEntry(tail[k]) {
        assert tail[k] == es[k + 1];
      }
      ScanPlain(s, m, tail);
      assert es == [es[0]] + tail;
      ConsThenAppend(es[0], tail, "");
    } else {
      ScanAtEnd(s);
      assert es == [es[0]];
    }
  }

  /** A quoted value split by the shell over two entries comes back as one
      token that keeps its quotes. */
  lemma QuotedValueKeepsQuotes()
    ensures Arguments(["\"a", "b\""]) == ["\"a b\"", ""]
  {
    var s := Join(["\"a", "b\""], " ");
    assert s == "\"a b\"";
    assert RunEnd(s, 2) == 2;
    assert RunEnd(s, 0) == 2;
    assert LineEnd(s, 1) == 5;
    assert LastClose(s, 0, 5, true).None?;
    assert LastOpen(s, 0, 2, true).None?;
    assert LastClose(s, 0, 5, false) == Some(4);
    assert LastOpen(s, 0, 2, false) == Some((0, 4));
    assert MatchEnd(s, 0) == 5;
    TrimDropsTrailingBlanks(s, "");
    assert s[0..5] == s + "";
    assert Scan(s, 0) == [s] + Scan(s, 5);
  }

  /** Greediness across values: with two quoted values on the line, the
      first match runs from the first opening quote to the last closing
      quote followed by a space, so both values land in one token. */
  lemma TwoQuotedValuesMerge()
    ensures Arguments(["\"x", "y\"", "\"z", "w\"", "c"]) == ["\"x y\" \"z w\"", "c", ""]
  {
    var s := Join(["\"x", "y\"", "\"z", "w\"", "c"], " ");
    assert s == "\"x y\" \"z w\" c";
    var value := TwoQuotedFirstMatch(s);
    TwoQuotedRest(s);
    assert Scan(s, 0) == [value] + Scan(s, 12);
  }

  /** The first match of that line ends after the second closing quote and
      its space. */
  lemma TwoQuotedFirstMatch(s: string) returns (value: string)
    requires s == "\"x y\" \"z w\" c"
    ensures value == "\"x y\" \"z w\"" && MatchEnd(s, 0) == 12 && Trim(s[0..12]) == value
  {
    assert RunEnd(s, 2) == 2;
    assert RunEnd(s, 0) == 2;
    assert LineEnd(s, 1) == 13;
    TwoQuotedLastClose(s);
    assert LastOpen(s, 0, 2, true) == Some((0, 10));
    value := "\"x y\" \"z w\"";
    assert s[0..12] == value + " ";
    TrimDropsTrailingBlanks(value, " ");
  }

  lemma TwoQuotedLastClose(s: string)
    requires s == "\"x y\" \"z w\" c"
    ensures LastClose(s, 0, 13, true) == Some(10)
  {
    assert ClosesAt(s, 10, true);
    assert LastClose(s, 0, 11, true) == Some(10);
    assert !ClosesAt(s, 11, true);
    assert LastClose(s, 0, 12, true) == Some(10);
    assert !ClosesAt(s, 12, true);
  }

  /** After it, the plain word `c` and the final empty match. */
  lemma TwoQuotedRest(s: string)
    requires s == "\"x y\" \"z w\" c"
    ensures Scan(s, 12) == ["c", ""]
  {
    assert RunEnd(s, 12) == 13;
    assert MatchEnd(s, 12) == 13;
    TrimDropsTrailingBlanks("c", "");
    assert s[12..13] == "c" + "";
    assert Scan(s, 12) == ["c"] + Scan(s, 13);
  }

  lemma ConsThenAppend<T>(x: T, xs: seq<T>, y: T)
    ensures [x] + (xs + [y]) == ([x] + xs) + [y]
  {
  }
}

=== FILE: values.dfy ===
/** The runtime types and values the parameters carry. Java classes are
    replaced by explicit tags: the boxed types the built-in parser knows, an
    enum with its constant names in declaration order, `Object`, and any
    other class by name. */
module Values {

  datatype TypeTag =
    | StringType
    | BooleanType
    | IntegerType
    | LongType
    | EnumType(enumName: string, constants: seq<string>)
    | ObjectType
    | OtherType(className: string)

  /** An object whose runtime class is `typ`, rendered as `text` (for an
      enum constant, its name). */
  datatype Value = Value(typ: TypeTag, text: string)

  /** A raw argument string kept as the value. */
  function StringValue(s: string): Value {
    Value(StringType, s)
  }

  /** `declared.isAssignableFrom(actual)`: every class is assignable to
      itself and to `Object`. */
  predicate IsAssignableFrom(declared: TypeTag, actual: TypeTag) {
    declared == actual || declared == ObjectType
  }
}
